=== FILE: README.md ===
# ev-oracle in Dafny

ev-oracle is a command-line tool that answers "what battery does the
<year> <make> <model> have?". It tries three sources in turn:

1. **Exact lookup.** It looks the vehicle up in a PostgreSQL table, `ev_specs`, comparing make and model case-insensitively.
2. **Similarity search.** On a miss, it embeds a canonical query text, "<make> <model> <year> battery specifications", with OpenAI or Ollama. It then asks pgvector for the single nearest stored record, and accepts that record when its confidence, 1 − cosine distance, is at least 0.8.
3. **LLM fallback.** Otherwise it asks an LLM (Claude or Ollama) once. It reads capacity, power and chemistry out of the free-text answer with three regular expressions.

Two more commands maintain the store:
- `add` seeds it, upserting a record together with the embedding of the same query text.
- `migrate` runs the schema migrations up, down or by a number of steps.

This project models that core as pure functions over immutable data. It proves what the code promises about each part.

## Modules

- **Wrappers, Http, Models.** `Option`/`Result`, the shape of an HTTP reply, the `EVSpec` record, and the constants 0.8 and 0.5.
- **Numbers.**
  - `%d` formatting.
  - `strconv.Atoi`: an optional sign, then digits, within the 64-bit range.
  - `strconv.ParseFloat` on the digit-and-dot runs that the patterns capture.
- **Text.**
  - `unicode.IsSpace` and `strings.TrimSpace`.
  - RE2's `\s` class.
  - The `(?i)` folding of the pattern letters.
  - The ASCII `LOWER()` used by the exact lookup.
- **Patterns.** The three response patterns, read the way RE2 runs them: the leftmost matching position, and there the greedy, leftmost-first choice. Lemmas prove this reading equal to a declarative "split" reading of each regular expression. For the unit patterns that split is the only one. For the line pattern it is the split RE2's priorities prefer.
- **Llm.**
  - `parseEVSpecs`.
  - The checks `queryClaude` and `queryOllama` make on the reply.
  - The provider switch in `QueryEVSpecs`.
- **Embedding.**
  - The provider switch in `GetEmbedding`.
  - The checks each provider makes on the reply.
  - `BuildQueryText`.
- **Store.** The `ev_specs` table as a sequence of rows in scan order, with:
  - the exact lookup, which returns the first row that matches;
  - the upsert on the literal `(make, model, year)` key;
  - the nearest-neighbour search, ordered by an uninterpreted distance function;
  - the treatment of `ErrNoChange` in the three migration operations.
- **Config.** `NewConfig`: the environment, then the options in order, then defaults, then validation. The process environment is a map from the eight variables the code reads.
- **Effects.** A command returns its outcome together with a **trace**: the calls it made on its collaborators, in order. Facts such as "the LLM is never called", "called at most once" and "stops at the first failure" are then statements about that sequence.
- **QueryCommand, AddCommand, MigrateCommand.** `runQuery` up to the output, `runAdd` and `runMigrate`.

Every collaborator is a parameter of the model:
- the store, as a `Database` value (its rows, whether it is reachable, and which statements fail);
- the embedding service's answers;
- the LLM providers' replies;
- the distance function;
- the migration engine's answers;
- the loaded configuration.

`RunQuery` composes the query with `NewConfig(env, [])`, as the command does.

Notes on the code:
- **No write-back.** `runQuery` never writes a generated answer to the store; `QueryNeverWrites` proves that a query makes no insert call.
- **Default Ollama generation model.** A field comment in `internal/models/config.go` gives it as `llama3.2`. The code sets `gemma3`, and so does the model.

## Model

| member | source | states |
|---|---|---|
| Config.Getenv | internal/models/config.go:79-86 | An unset variable reads as the empty string; a set one reads as its value. |
| Config.FromEnvironment | internal/models/config.go:74-89 | Each of the eight configuration fields takes the value of its own environment variable. |
| Config.ApplyOption | internal/models/config.go:91-113 | Each of the three setters changes its own field only and never fails. |
| Config.ApplyOptions | internal/models/config.go:35-39 | No options leave the configuration as it was. Options that are all setters never fail. |
| Config.ApplyOptionsAppend | internal/models/config.go:35-39 | Applying `a + b` is applying `a`, then `b` to its result. A failure in `a` ends the run with that failure. |
| Config.WithDefaults | internal/models/config.go:42-56 | Each empty provider setting takes its default: "openai", "ollama", "http://localhost:11434", "nomic-embed-text", "gemma3". A set one is kept. The URL and the keys are untouched. |
| Config.DefaultsIdempotent | internal/models/config.go:42-56 | Defaulting changes nothing once no provider setting is empty, so applying it twice is applying it once. |
| Config.Validate | internal/models/config.go:59-67 | Validation succeeds exactly when the database URL is set, OpenAI embeddings have a key and Claude has a key. Otherwise it reports the first failing check, in the code's order. |
| Config.NewConfig | internal/models/config.go:26-70 | A loaded configuration passes validation and has every provider setting non-empty. It is the environment, then the options in order, then the defaults. A failing option ends the load with that option's message. |
| Config.LaterOptionWins | internal/models/config.go:35-39 | A database URL option given last is the one the loaded configuration holds, and no missing-URL error can follow. |
| Config.FirstFailureAborts | internal/models/config.go:35-39 | The first failing option decides the outcome, whatever options follow it. |
| Config.EnvironmentOnly | internal/models/config.go:26-70 | With no options, loading succeeds exactly when: the database URL is set; an OpenAI key is present if the embedding provider is unset or "openai"; and an Anthropic key is present if the LLM provider is "claude". |
| Config.EnvironmentValues | internal/models/config.go:26-56 | With no options, a loaded configuration holds the URL and keys from their variables. Each provider setting is its variable's value, or its default when that variable is unset or empty; `LLM_PROVIDER` decides the LLM provider, for example. |
| Store.Connect | internal/db/db.go:25-40 | Creating and pinging the pool succeeds exactly when the database is reachable. |
| Store.FirstMatchingSpec | internal/db/db.go:218-222 | The row found matches and no earlier row does. When none is found, no row matches. |
| Store.GetByMakeModelYear | internal/db/db.go:214-236 | The lookup fails exactly when its statement fails, and reports that statement. |
| Store.ExactLookupAnswer | internal/db/db.go:214-242 | "Absent" is answered exactly when no row matches; it is not an error. A hit is a matching row, with make and model equal to the query's under lower-casing, confidence 1.0 and source "database". |
| Store.LookupIgnoresCase | internal/db/db.go:218 | Queries whose make and model differ only in ASCII letter case select the same row. |
| Store.UpsertRow | internal/db/db.go:186-195 | After the upsert the keys are still unique and the new row is present. Every row is either the new row or an old one, and the new row is the only one with its key. |
| Store.UpsertKeepsOthers | internal/db/db.go:189-194 | Rows with other keys are left unchanged, in order. A row is added exactly when the key was absent, so an existing key gains no row. |
| Store.UpsertTwiceKeepsLatest | internal/db/db.go:189-194 | Upserting the same key twice leaves the values of the second write. |
| Store.InsertEVSpec | internal/db/db.go:178-211 | The insert fails exactly when its statement fails. Otherwise the table is the upsert of the record's row with its embedding. |
| Store.CandidatesSpec | internal/db/db.go:138-140 | The search considers exactly the rows with a non-NULL embedding, each scored with its distance to the query. |
| Store.InsertByDistance | internal/db/db.go:141 | Inserting into an ascending sequence keeps it ascending and one longer. |
| Store.InsertByDistancePermutes | internal/db/db.go:141 | Inserting adds the element and loses nothing (multiset equality). |
| Store.SortByDistance | internal/db/db.go:141 | The ordering is ascending by distance and a permutation of the candidates. |
| Store.Nearest | internal/db/db.go:142 | `LIMIT` returns at most `limit` candidates. |
| Store.NearestSpec | internal/db/db.go:140-142 | The result is ascending and is a sub-multiset of the candidates, so no candidate is kept twice. It holds all of them when there are at most `limit`, and none it keeps is farther than any it leaves out. |
| Store.SimilaritySearch | internal/db/db.go:122-175 | A failed query or a negative limit is an error. Otherwise the search succeeds with at most `limit` records. |
| Store.SearchReportsRows | internal/db/db.go:138-166 | Every record returned is a stored row that has an embedding, with confidence 1 − distance and source "database". Confidence never increases along the answer. |
| Store.NearestNeighbour | internal/db/db.go:138-142 | Asked for one result, the search returns nothing exactly when no row has an embedding. Otherwise its result is at least as confident as every embedded row. |
| Store.Migrate | internal/db/db.go:54-96 | Up, down and steps succeed exactly when the engine applies the operation or reports no change; an engine failure is reported for that operation. |
| Embedding.EmbedBackendFor | internal/embedding/embedding.go:70-77 | Only "ollama" selects Ollama; every other provider string, "" included, selects OpenAI. |
| Embedding.Unpack | internal/embedding/embedding.go:106-182 | A failed request or a non-200 status is an error. Success needs a non-empty vector list, and for Ollama a non-empty first vector; the result is then that first vector. |
| Embedding.GetEmbedding | internal/embedding/embedding.go:69-78 | The chosen backend's reply decides the result. The call succeeds exactly when the reply is delivered with status 200 and a non-empty data list, whose first vector must also be non-empty for "ollama". A non-200 status is `BadStatus` with that status. A success is the first vector of the reply. |
| Embedding.QueryTextDeterminesYearAndName | internal/embedding/embedding.go:186-188 | Two query texts are equal exactly when the years are equal and the joined "make model" strings are equal. |
| Embedding.QueryTextLayout | internal/embedding/embedding.go:186-188 | `BuildQueryText`'s text starts with the make and a space, carries the model right after it, and ends with " battery specifications". |
| Embedding.QueryTextNotInjective | internal/embedding/embedding.go:187 | ("A B", "C") and ("A", "B C") give the same query text. |
| Numbers.FormatInt | internal/embedding/embedding.go:187 | `%d` of an integer is a non-empty digit string. It starts with a minus exactly when the value is negative. |
| Numbers.AtoiFormatInt | internal/embedding/embedding.go:187 | Every 64-bit integer survives `%d` followed by `Atoi`. |
| Numbers.FormatIntInjective | internal/embedding/embedding.go:187 | `%d` never spells two integers the same way. |
| Numbers.Atoi | cmd/root.go:54-57 | An accepted year text is an optional sign followed by at least one digit (a bare sign is rejected), and its value fits 64 bits. |
| Numbers.ParseFloat | internal/llm/llm.go:247 | A captured run parses exactly when it has a digit and at most one dot, and the value is then non-negative. |
| Numbers.ParseFloatFormatNat | internal/llm/llm.go:247 | A plain digit string parses to the integer it spells. |
| Numbers.ParseFloatDotted | internal/llm/llm.go:247 | A run `w.f` of digits with one dot and at least one digit parses to the digits of `w` and `f` read together as an integer, divided by 10 to the power of the digit count of `f` ("75.5" is 755 / 10). |
| Numbers.DigitsValueAppend | internal/llm/llm.go:247 | Appending digits shifts the value of the leading digits left by one decimal place per appended digit. |
| Text.TrimSpace | internal/llm/llm.go:261 | The result neither starts nor ends with white space, and it is empty exactly when the input is all white space. |
| Text.TrimSpaceIsInfix | internal/llm/llm.go:261 | What is kept is a stretch of the input with only white space around it. |
| Text.TrimSpacePadded | internal/llm/llm.go:261 | Trimming white-space padding recovers any core that itself neither starts nor ends with white space. |
| Patterns.UnitMatchAt | internal/llm/llm.go:31-32 | A unit-pattern capture is a non-empty run of digits and dots. |
| Patterns.UnitSplitDeterminesMatch | internal/llm/llm.go:31-32 | Every way the regular expression can match at a position captures the same run, so the match is unique. |
| Patterns.UnitMatchIsSplit | internal/llm/llm.go:31-32 | Every capture the model reports is a genuine match of the regular expression. |
| Patterns.UnitPrefixAccepts | internal/llm/llm.go:32 | A match against a longer unit, such as "kWh", is also a match of the pattern asking for its prefix "kW". |
| Patterns.LineStartAt | internal/llm/llm.go:33 | The chemistry capture starts after the marker, at a character that is not a newline. Conversely, any reported start is a genuine split: the marker matches ignoring case, only `\s` characters lie between it and the start, and the capture runs to the end of the line. |
| Patterns.LineMatchIsPreferredSplit | internal/llm/llm.go:33 | The chemistry pattern matches wherever any split exists. The capture reported is the split RE2 prefers: latest start, then longest line. |
| Patterns.FirstMatch | internal/llm/llm.go:246 | A reported match lies at or after the start position and really matches there. |
| Patterns.FirstMatchLeftmost | internal/llm/llm.go:246 | No position before the reported match matches. When none is reported, no position matches. |
| Patterns.Submatch | internal/llm/llm.go:246 | A unit pattern's submatch is a non-empty run of digits and dots. |
| Patterns.SubmatchAtLeftmost | internal/llm/llm.go:246 | `FindStringSubmatch` returns the capture at the leftmost matching position. |
| Patterns.SubmatchNone | internal/llm/llm.go:246 | There is no submatch exactly when no position matches. |
| Llm.ExtractNumber | internal/llm/llm.go:246-257 | A numeric field is never negative, and it is 0 when the pattern does not match. |
| Llm.ExtractChemistry | internal/llm/llm.go:259-262 | The chemistry has no white space at either end. It is empty exactly when the pattern does not match or the capture is all white space. |
| Llm.ParseEVSpecs | internal/llm/llm.go:236-270 | Parsing fails, and only with "unparseable", exactly when capacity and power are 0 and chemistry is empty. On success the record holds the inputs' make, model and year, the three extracted fields, confidence 0.5 and source "llm". |
| Llm.NumberFromLeftmostMatch | internal/llm/llm.go:246-250 | A number field is the parse of the run captured at the leftmost match, or 0 when that run is malformed. |
| Llm.MalformedRunLeavesZero | internal/llm/llm.go:247-248 | A run such as "1.2.3" or "." leaves its field at 0 instead of failing the parse. |
| Llm.PowerAcceptsKWh | internal/llm/llm.go:32 | With "Power: <run> kWh" as the leftmost power match, the capture is the run, and the power is the run's parsed value (0 for a malformed run), as for `kW`. |
| Llm.ChemistryIsRestOfLine | internal/llm/llm.go:259-262 | Chemistry is the trimmed rest of the line after the marker and any white space, newlines included. It is empty when only white space follows. |
| Llm.TrailingSpaceCapture | internal/llm/llm.go:33 | When only white space follows the marker, the one character `\s*` gives back for the capture is itself white space. |
| Llm.ExplicitZeroCapacityFails | internal/llm/llm.go:264-267 | An answer whose leftmost capacity match is "Capacity: 0 kWh", with no power or chemistry match, fails as unparseable, like an answer with no fields. |
| Llm.ZeroCapacityReadsZero | internal/llm/llm.go:246-250 | A leftmost capacity match whose run is the single digit `0` gives capacity 0. |
| Llm.QueryClaude | internal/llm/llm.go:139-159 | A failed request, a non-200 status or an empty content list is an error. Success means a delivered 200 reply whose first text parses, and the record is that parse. |
| Llm.QueryOllama | internal/llm/llm.go:212-232 | A failed request, a non-200 status or an empty response is an error. Success means a delivered 200 reply whose text parses, and the record is that parse. |
| Llm.LlmBackendFor | internal/llm/llm.go:87-94 | Only "ollama" selects Ollama. |
| Llm.QueryEVSpecs | internal/llm/llm.go:86-95 | A generated record carries the queried make, model and year, confidence 0.5 and source "llm". |
| Llm.ProviderRouting | internal/llm/llm.go:86-95 | "ollama" is answered by the Ollama path; every other string, "claude" and "" included, by the Claude path. |
| QueryCommand.AskLlm | cmd/root.go:113-124 | The LLM is called once, with the configured provider. Its error becomes the query's error, and its record carries the queried vehicle with source "llm". |
| QueryCommand.AfterEmbedding | cmd/root.go:100-124 | After embedding, the search comes first and at most the LLM follows. The run stops at its failure. |
| QueryCommand.AfterMiss | cmd/root.go:93-124 | After a miss, the first call embeds exactly `BuildQueryText(make, model, year)` with the configured provider. |
| QueryCommand.Tiers | cmd/root.go:74-124 | The tiers begin with the exact lookup and follow exact, embed, search, LLM in order, stopping at a failure. |
| QueryCommand.RunQuery | cmd/root.go:48-66 | The command's query loads the configuration with `NewConfig(env, [])` and follows the query's call order. If the year parses and that load fails, the query ends with that configuration error after the one load call. If the load succeeds, the load is the first call. |
| QueryCommand.ConnectAndResolve | cmd/root.go:67-124 | The connection precedes every tier. An unreachable database ends the run with `DatabaseUnreachable` after the connection attempt alone. |
| QueryCommand.UnreachableStopsQuery | cmd/root.go:67-71 | With the year parsed and the configuration loaded, an unreachable database ends the query with `DatabaseUnreachable` after the calls [config, connect]. |
| QueryCommand.Resolve | cmd/root.go:48-125 | Calls follow config, connect, exact, embed, search, LLM, in order, and the run stops at a failure. No call is made exactly when the year text is not an integer, and that is the invalid-year error. |
| QueryCommand.MissingDatabaseStopsQuery | cmd/root.go:59-63 | Without a database URL the query ends after loading the configuration. The store, the embedder and the LLM are never contacted. |
| QueryCommand.ResolveConnected | cmd/root.go:59-72 | Once connected, a query is the configuration load and the connection followed by the tiers. |
| QueryCommand.ConfigErrorStopsQuery | cmd/root.go:59-63 | A configuration error ends the query before the database is contacted. |
| QueryCommand.ExactHitShortCircuits | cmd/root.go:80-83 | An exact hit is returned unchanged with confidence 1.0. Neither the embedder nor the LLM is called. |
| QueryCommand.LookupErrorStopsQuery | cmd/root.go:75-78 | An exact-lookup error ends the query with that error after the lookup. |
| QueryCommand.TiersOnMiss | cmd/root.go:74-95 | On a miss, the lookup is followed by the embedding tier. |
| QueryCommand.AfterMissOnEmbedding | cmd/root.go:94-98 | An embedding failure is the last call and the outcome. Otherwise the search stage follows the embedding call. |
| QueryCommand.MissEmbedsQueryText | cmd/root.go:94-98 | On a miss, the fourth call embeds exactly `BuildQueryText`. If that fails, the query ends there with no search and no LLM call. |
| QueryCommand.ResolveAfterEmbedding | cmd/root.go:94-101 | Once embedded, a query is its first four calls followed by the search stage. |
| QueryCommand.SearchAsksForOne | cmd/root.go:101-104 | The search asks for one result. A search failure ends the query with that error, with no LLM call. |
| QueryCommand.AfterEmbeddingDecides | cmd/root.go:106-119 | A confident first result ends the query. Anything else hands it to the LLM. |
| QueryCommand.GenerateOnlyLast | cmd/root.go:113-119 | The LLM is called exactly when the trace holds all six calls. |
| QueryCommand.ThresholdDecides | cmd/root.go:107-109 | The LLM is skipped exactly when the search found a record with confidence ≥ 0.8, and that record is then the answer. |
| QueryCommand.LlmAnswerIsFinal | cmd/root.go:113-124 | Below the threshold the LLM is the last call, and its record or its error is the query's outcome. |
| QueryCommand.QueryNeverWrites | cmd/root.go:48-125 | A query never inserts into the store, not even a generated answer. |
| QueryCommand.CollaboratorsCalledOnce | cmd/root.go:74-124 | The embedder and the LLM are each called at most once. |
| AddCommand.NewRecord | cmd/add.go:72-79 | The record takes make, model and year from the arguments and its values from the flags. Confidence and source are left at their zero values. |
| AddCommand.EmbedAndInsert | cmd/add.go:69-91 | The add embeds `BuildQueryText` with OpenAI and then inserts. On success the stored vector is the OpenAI service's answer for `BuildQueryText(make, model, year)`. The inserted row is the record built from the arguments and flags with that vector, and the outcome is the upserted table. The run succeeds exactly when the embedding and the upsert statement both succeed. A failed upsert makes it an insert error after the insert call. |
| AddCommand.ConnectAndAdd | cmd/add.go:61-91 | The calls are connect, embed, insert, in order. An unreachable database ends the run with `DatabaseUnreachable` after the connection attempt alone. A resulting table keeps its keys unique. |
| AddCommand.ConfigErrorStopsAdd | cmd/add.go:53-57 | With the year parsed, a configuration error ends the add with that error after the load call alone. |
| AddCommand.UnreachableStopsAdd | cmd/add.go:61-65 | With the configuration loaded, an unreachable database ends the add with `DatabaseUnreachable` after [config, connect]: nothing is embedded or inserted. |
| AddCommand.InsertFailureFailsAdd | cmd/add.go:88-91 | When the upsert statement fails, the add ends with that insert error after the insert call. It never reports success over a failed write. |
| AddCommand.AddSucceedsWhen | cmd/add.go:43-99 | An add succeeds exactly when the year parses, the configuration loads, the database answers, the OpenAI embedding succeeds and the upsert statement succeeds. |
| AddCommand.RunAdd | cmd/add.go:43-99 | The calls are config, connect, embed, insert. No call is made exactly when the year text is not an integer, and that is the invalid-year error. |
| AddCommand.RunAddConnected | cmd/add.go:53-66 | Once connected, an add is the configuration load and the connection followed by the embed and the insert. |
| AddCommand.SameQueryTextAsReader | cmd/add.go:69-83 | An add embeds the same text a query for the same arguments embeds after a miss, and always with OpenAI. |
| AddCommand.SuccessFollowsInsert | cmd/add.go:88-98 | An add succeeds only after the insert call. That call writes the record built from the arguments and flags, with the OpenAI embedding of the query text for the parsed year. The upsert statement did not fail, and the outcome is that upsert. |
| AddCommand.EmbeddingFailureInsertsNothing | cmd/add.go:82-86 | A failed embedding ends the add with that error, and no insert is made. |
| AddCommand.AddThenLookup | cmd/add.go:89-91 | After an add, a lookup of the same vehicle in any letter case finds the flags' values with confidence 1.0. This needs that no other row differs from the new key only in case. |
| MigrateCommand.SelectOperation | cmd/migrate.go:60-88 | A non-zero step count selects steps. Otherwise the first argument, "up" by default, selects up for "up" and down for "down", compared exactly. Any other direction is rejected and named. |
| MigrateCommand.ConnectAndMigrate | cmd/migrate.go:53-90 | The connection precedes the operation. A migration call is made only for a valid selection, and it is that operation. |
| MigrateCommand.RunMigrate | cmd/migrate.go:44-90 | The calls are config, connect, migration, in order, stopping at a failure. The migration run is the selected operation. |
| MigrateCommand.OneMigrationAtMost | cmd/migrate.go:61-90 | At most one migration operation runs per invocation. |
| MigrateCommand.StepsIgnoreDirection | cmd/migrate.go:61-67 | With a non-zero step count the direction argument makes no difference. |
| MigrateCommand.DirectionIsCaseSensitive | cmd/migrate.go:75-88 | "Up" and "DOWN" are rejected as invalid directions, and no migration runs. |
| MigrateCommand.NoChangeSucceeds | cmd/migrate.go:61-85 | When the engine reports no change, the command succeeds. |
| MigrateCommand.SetupErrorsComeFirst | cmd/migrate.go:44-88 | Configuration and connection errors take precedence over an invalid direction. An invalid direction is reported after connecting, with no migration call. |
| MigrateCommand.MigrateSucceedsWhen | cmd/migrate.go:44-90 | A migrate succeeds exactly when configuration, connection and argument checks pass and the engine applies the operation or finds nothing to do. |

## Left out

- HTTP plumbing for the OpenAI, Anthropic and Ollama APIs: request construction, headers, JSON encoding and decoding, and the prompts. A reply is a delivered (status, body) or a failure. Every error other than a delivered status is one `Failed` value, including a JSON decoding error after a 200.
- SQL execution and pgvector. Cosine distance is an uninterpreted function. The `%g` vector formatting (internal/db/db.go:124-128, 180-184) is not modelled, nor is the connection pool or closing it.
- Row scan errors and iteration errors in the similarity search (internal/db/db.go:163-172): they are part of a failing `SelectNearest`.
- Store.SortByDistance: ties between equal distances keep the table's scan order. PostgreSQL promises no order among ties, so this is one admissible order, not the only one.
- The store's unique index is taken to be on the literal `(make, model, year)` columns, as the upsert's conflict target says. Rows that differ only in letter case are separate rows, and the exact lookup then returns the first in scan order.
- golang-migrate itself, the migrations directory and `cmd/init.go`. The engine's answer to each operation is a parameter, `InstanceUnavailable` covers a failure to create the instance, and `--steps` values are passed through unchecked.
- Floating point. Capacity, power, confidence and vectors are exact reals. The float32 conversion of Ollama vectors (internal/embedding/embedding.go:177-180) and the `>=` comparison's float semantics are not modelled.
- Numbers.ParseFloat: yields the exact decimal value of the run. float64 rounding is not modelled, nor the range error (and so the field staying 0) for a run too large for a float64.
- Text.EqualFold: `LOWER()` is modelled for ASCII letters only; other characters compare unchanged.
- Text.FoldsTo: `(?i)` folding covers the letters of the three patterns: the ASCII pairs, plus the Kelvin sign for `k` and the long s for `s`.
- `godotenv` and the process environment. The environment is a map from the eight variables the configuration reads, after the optional `.env` file has been merged in.
- The commands take the loaded configuration as a parameter (`Loaded`). `RunQuery` shows the command's own composition with `NewConfig(env, [])`.
- Cobra argument parsing, flag parsing and the required-flag checks; the `add` flags arrive as real values.
- Output: `outputSpec`, JSON output, `printf` precision and debug printing. The model ends at the value that is output or the error returned.
- `EmbeddingDimension` (internal/models/constants.go:11) is used by no modelled code, so no dimension checks are modelled.
- Which concrete service `NewWithProvider` builds (keys, URL and model names). The model records which backend is called and with what, not how it is reached.
- Llm.QueryEVSpecs: its own contract states only the fields every generated record carries; which provider answers is stated by `Llm.ProviderRouting`.

=== FILE: add.dfy ===
/** The add command: seed the store with a known specification. The record is
    built from the arguments and flags, its canonical query text is embedded
    with OpenAI, and the record and its embedding are upserted. */
module AddCommand {
  import opened Wrappers
  import opened Numbers
  import opened Text
  import opened Models
  import opened Config
  import opened Store
  import opened Embedding
  import opened Effects
  import QueryCommand

  /** The calls an add can make, in the order it makes them. */
  const AddPlan: seq<Kind> := [LoadConfigKind, ConnectKind, EmbedKind, InsertKind]

  /** `embedding.New(key)` builds an OpenAI service whatever provider is configured. */
  const AddEmbeddingProvider: string := "openai"

  /** The `--capacity`, `--power` and `--chemistry` flags (`float64` read as exact reals). */
  datatype Flags = Flags(capacity: real, power: real, chemistry: string)

  /** The record the command stores: key from the arguments, values from the
      flags, confidence and source left at their zero values. */
  function NewRecord(make: string, model: string, year: int, flags: Flags): (s: EVSpec)
    ensures s.make == make && s.model == model && s.year == year
    ensures s.capacity == flags.capacity && s.power == flags.power && s.chemistry == flags.chemistry
    ensures s.confidence == 0.0 && s.source == ""
  {
    EVSpec(make, model, year, flags.capacity, flags.power, flags.chemistry, 0.0, "")
  }

  /** Everything after the connection: embed the query text, then upsert. */
  function EmbedAndInsert(make: string, model: string, year: int, flags: Flags, db: Database,
                          embed: EmbedService): (r: Run<Table>)
    requires UniqueKeys(db.table)
    ensures FollowsPlan(r.trace, [EmbedKind, InsertKind]) && r.trace != [] && StopsAtFailure(r)
    ensures r.trace[0] == Embed(OpenAIBackend, BuildQueryText(make, model, year))
    ensures r.outcome.Ok? ==>
              && |r.trace| == 2
              && r.trace[1].Insert?
              && r.trace[1].row.embedding.Some?
              && r.trace[1].row == RowOf(NewRecord(make, model, year, flags), r.trace[1].row.embedding.value)
              && r.outcome.value == UpsertRow(db.table, r.trace[1].row)
    ensures r.outcome.Ok? ==>
              GetEmbedding(AddEmbeddingProvider, BuildQueryText(make, model, year), embed)
                == Ok(r.trace[1].row.embedding.value)
    ensures r.outcome.Ok? <==>
              GetEmbedding(AddEmbeddingProvider, BuildQueryText(make, model, year), embed).Ok?
              && UpsertSpec !in db.failing
    ensures GetEmbedding(AddEmbeddingProvider, BuildQueryText(make, model, year), embed).Ok?
            && UpsertSpec in db.failing ==>
              r.outcome == Err(InsertFailed(QueryFailed(UpsertSpec))) && |r.trace| == 2 && r.trace[1].Insert?
  {
    var text := BuildQueryText(make, model, year);
    assert EmbedBackendFor(AddEmbeddingProvider) == OpenAIBackend;
    var call := Embed(OpenAIBackend, text);
    var vector := GetEmbedding(AddEmbeddingProvider, text, embed);
    if vector.Err? then Single(call, Err(EmbeddingFailed(vector.error)))
    else
      var spec := NewRecord(make, model, year, flags);
      var inserted := InsertEVSpec(db, spec, vector.value);
      var insert := Insert(RowOf(spec, vector.value));
      var r := Before(call, Single(insert, if inserted.Err? then Err(InsertFailed(inserted.error)) else Ok(inserted.value)), [InsertKind]);
      assert [EmbedKind] + [InsertKind] == [EmbedKind, InsertKind];
      r
  }

  /** Everything after the configuration: connect, then embed and insert. */
  function ConnectAndAdd(make: string, model: string, year: int, flags: Flags, db: Database,
                         embed: EmbedService): (r: Run<Table>)
    requires UniqueKeys(db.table)
    ensures FollowsPlan(r.trace, [ConnectKind, EmbedKind, InsertKind]) && r.trace != [] && StopsAtFailure(r)
    ensures r.outcome.Ok? ==> UniqueKeys(r.outcome.value)
    ensures !db.reachable ==> r == Run(Err(DatabaseUnreachable), [ConnectDatabase])
  {
    if Connect(db).Err? then Single(ConnectDatabase, Err(DatabaseUnreachable))
    else
      var r := Before(ConnectDatabase, EmbedAndInsert(make, model, year, flags, db, embed), [EmbedKind, InsertKind]);
      assert [ConnectKind] + [EmbedKind, InsertKind] == [ConnectKind, EmbedKind, InsertKind];
      r
  }

  /** `runAdd`: parse the year, load the configuration, connect, then embed and
      insert. The outcome on success is the table after the upsert. `loaded` is
      what loading the configuration answers (`NewConfig(env, [])`). */
  function RunAdd(make: string, model: string, yearText: string, flags: Flags, loaded: Loaded,
                  db: Database, embed: EmbedService): (r: Run<Table>)
    requires UniqueKeys(db.table)
    ensures FollowsPlan(r.trace, AddPlan)
    ensures StopsAtFailure(r)
    ensures r.trace == [] <==> Atoi(yearText).None?
    ensures Atoi(yearText).None? ==> r.outcome == Err(InvalidYear(yearText))
    ensures r.outcome.Ok? ==> UniqueKeys(r.outcome.value)
  {
    match Atoi(yearText)
    case None => Run(Err(InvalidYear(yearText)), [])
    case Some(year) =>
      match loaded
      case Err(e) => Single(LoadConfig, Err(ConfigFailed(e)))
      case Ok(_) =>
        var r := Before(LoadConfig, ConnectAndAdd(make, model, year, flags, db, embed), [ConnectKind, EmbedKind, InsertKind]);
        assert [LoadConfigKind] + [ConnectKind, EmbedKind, InsertKind] == AddPlan;
        r
  }

  // ---------------------------------------------------------------------------
  // What an add does.
  // ---------------------------------------------------------------------------

  /** Once connected, an add is the configuration load and the connection
      followed by the embedding and the insert. */
  lemma RunAddConnected(make: string, model: string, yearText: string, flags: Flags, loaded: Loaded,
                        db: Database, embed: EmbedService, year: int)
    requires UniqueKeys(db.table)
    requires Atoi(yearText) == Some(year) && loaded.Ok? && db.reachable
    ensures var r := RunAdd(make, model, yearText, flags, loaded, db, embed);
            var t := EmbedAndInsert(make, model, year, flags, db, embed);
            r.outcome == t.outcome && r.trace == [LoadConfig, ConnectDatabase] + t.trace
  {
  }

  /** An add and a query for the same arguments embed the same text; the add
      always uses OpenAI, even when the query is configured for Ollama. */
  lemma SameQueryTextAsReader(make: string, model: string, yearText: string, flags: Flags, loaded: Loaded,
                              db: Database, embed: EmbedService, svc: QueryCommand.Services, year: int)
    requires UniqueKeys(db.table)
    requires Atoi(yearText) == Some(year) && loaded.Ok? && db.reachable
    requires GetByMakeModelYear(db, make, model, year) == Ok(None)
    ensures var w := RunAdd(make, model, yearText, flags, loaded, db, embed).trace;
            var q := QueryCommand.Resolve(make, model, yearText, loaded, db, svc).trace;
            && |w| >= 3 && |q| >= 4 && w[2].Embed? && q[3].Embed?
            && w[2].text == q[3].text == BuildQueryText(make, model, year)
            && w[2].embedder == OpenAIBackend
  {
    RunAddConnected(make, model, yearText, flags, loaded, db, embed, year);
    QueryCommand.MissEmbedsQueryText(make, model, yearText, loaded, db, svc, year);
  }

  /** An add succeeds only once the insert has been made and the upsert
      statement has succeeded: its last call writes the record built from the
      arguments and flags, with the OpenAI embedding of the query text as its
      vector, and the outcome is the table with that row upserted. */
  lemma SuccessFollowsInsert(make: string, model: string, yearText: string, flags: Flags, loaded: Loaded,
                             db: Database, embed: EmbedService)
    requires UniqueKeys(db.table)
    requires RunAdd(make, model, yearText, flags, loaded, db, embed).outcome.Ok?
    ensures var r := RunAdd(make, model, yearText, flags, loaded, db, embed);
            && Atoi(yearText).Some?
            && |r.trace| == 4 && r.trace[3].Insert? && r.trace[3].row.embedding.Some?
            && r.trace[3].row == RowOf(NewRecord(make, model, Atoi(yearText).value, flags), r.trace[3].row.embedding.value)
            && r.outcome.value == UpsertRow(db.table, r.trace[3].row)
            && GetEmbedding(AddEmbeddingProvider, BuildQueryText(make, model, Atoi(yearText).value), embed)
                 == Ok(r.trace[3].row.embedding.value)
            && UpsertSpec !in db.failing
  {
    var year := Atoi(yearText).value;
    RunAddConnected(make, model, yearText, flags, loaded, db, embed, year);
  }

  /** A configuration error ends the add after loading it, before the
      database is contacted. */
  lemma ConfigErrorStopsAdd(make: string, model: string, yearText: string, flags: Flags, loaded: Loaded,
                            db: Database, embed: EmbedService)
    requires UniqueKeys(db.table)
    requires Atoi(yearText).Some? && loaded.Err?
    ensures var r := RunAdd(make, model, yearText, flags, loaded, db, embed);
            r.outcome == Err(ConfigFailed(loaded.error)) && r.trace == [LoadConfig]
  {
  }

  /** An unreachable database ends the add after the connection attempt:
      nothing is embedded or inserted. */
  lemma UnreachableStopsAdd(make: string, model: string, yearText: string, flags: Flags, loaded: Loaded,
                            db: Database, embed: EmbedService)
    requires UniqueKeys(db.table)
    requires Atoi(yearText).Some? && loaded.Ok? && !db.reachable
    ensures var r := RunAdd(make, model, yearText, flags, loaded, db, embed);
            r.outcome == Err(DatabaseUnreachable) && r.trace == [LoadConfig, ConnectDatabase]
  {
  }

  /** A failed upsert statement fails the add with that error, after the insert
      call; the add never reports success over a failed write. */
  lemma InsertFailureFailsAdd(make: string, model: string, yearText: string, flags: Flags, loaded: Loaded,
                              db: Database, embed: EmbedService, year: int)
    requires UniqueKeys(db.table)
    requires Atoi(yearText) == Some(year) && loaded.Ok? && db.reachable
    requires GetEmbedding(AddEmbeddingProvider, BuildQueryText(make, model, year), embed).Ok?
    requires UpsertSpec in db.failing
    ensures var r := RunAdd(make, model, yearText, flags, loaded, db, embed);
            && r.outcome == Err(InsertFailed(QueryFailed(UpsertSpec)))
            && |r.trace| == 4 && r.trace[3].Insert?
  {
    RunAddConnected(make, model, yearText, flags, loaded, db, embed, year);
  }

  /** An add succeeds exactly when the year parses, the configuration loads,
      the database answers, the embedding succeeds and the upsert succeeds. */
  lemma AddSucceedsWhen(make: string, model: string, yearText: string, flags: Flags, loaded: Loaded,
                        db: Database, embed: EmbedService)
    requires UniqueKeys(db.table)
    ensures RunAdd(make, model, yearText, flags, loaded, db, embed).outcome.Ok? <==>
              && Atoi(yearText).Some? && loaded.Ok? && db.reachable
              && GetEmbedding(AddEmbeddingProvider, BuildQueryText(make, model, Atoi(yearText).value), embed).Ok?
              && UpsertSpec !in db.failing
  {
    if Atoi(yearText).Some? && loaded.Ok? && db.reachable {
      RunAddConnected(make, model, yearText, flags, loaded, db, embed, Atoi(yearText).value);
    }
  }

  /** A failed embedding ends the add with that error, and nothing is inserted. */
  lemma EmbeddingFailureInsertsNothing(make: string, model: string, yearText: string, flags: Flags, loaded: Loaded,
                                       db: Database, embed: EmbedService, year: int)
    requires UniqueKeys(db.table)
    requires Atoi(yearText) == Some(year) && loaded.Ok? && db.reachable
    requires GetEmbedding("openai", BuildQueryText(make, model, year), embed).Err?
    ensures var r := RunAdd(make, model, yearText, flags, loaded, db, embed);
            && r.outcome == Err(EmbeddingFailed(GetEmbedding("openai", BuildQueryText(make, model, year), embed).error))
            && CountKind(r.trace, InsertKind) == 0
  {
    RunAddConnected(make, model, yearText, flags, loaded, db, embed, year);
    var r := RunAdd(make, model, yearText, flags, loaded, db, embed);
    assert |r.trace| == 3;
  }

  /** After a successful add, a lookup of the same make, model and year (in any
      letter case) finds the flags' values, provided no other row differs from
      the new key only in letter case. */
  lemma AddThenLookup(make: string, model: string, yearText: string, flags: Flags, loaded: Loaded,
                      db: Database, embed: EmbedService, year: int, make': string, model': string)
    requires UniqueKeys(db.table)
    requires Atoi(yearText) == Some(year)
    requires RunAdd(make, model, yearText, flags, loaded, db, embed).outcome.Ok?
    requires EqualFold(make, make') && EqualFold(model, model')
    requires forall row :: row in db.table && MatchesQuery(row, make, model, year) ==> KeyOf(row) == Key(make, model, year)
    requires SelectExact !in db.failing
    ensures var t := RunAdd(make, model, yearText, flags, loaded, db, embed).outcome.value;
            var found := GetByMakeModelYear(db.(table := t), make', model', year);
            && found.Ok? && found.value.Some?
            && found.value.value.capacity == flags.capacity
            && found.value.value.power == flags.power
            && found.value.value.chemistry == flags.chemistry
            && found.value.value.confidence == 1.0
  {
    RunAddConnected(make, model, yearText, flags, loaded, db, embed, year);
    var e := EmbedAndInsert(make, model, year, flags, db, embed);
    var row := e.trace[1].row;
    var t := e.outcome.value;
    var db' := db.(table := t);
    assert KeyOf(row) == Key(make, model, year);
    LookupIgnoresCase(db', make, model, make', model', year);
    var k := FirstMatching(t, make, model, year, 0);
    FirstMatchingSpec(t, make, model, year, 0);
    assert row in t;
    var j :| 0 <= j < |t| && t[j] == row;
    assert MatchesQuery(t[j], make, model, year);
    assert k.Some?;
    assert t[k.value] in t;
  }
}

=== FILE: config.dfy ===
/** Application configuration: values read from the environment, then the
    caller's functional options in order, then defaults for the provider
    settings, then validation of the fields the chosen providers need. */
module Config {
  import opened Wrappers

  datatype Config = Config(
    databaseUrl: string,
    openAIKey: string,
    anthropicKey: string,
    embeddingProvider: string,   // "openai" or "ollama"
    llmProvider: string,         // "claude" or "ollama"
    ollamaUrl: string,
    ollamaModel: string,         // embedding model
    ollamaLlmModel: string)      // generation model

  /** The environment variables the configuration reads. */
  datatype EnvVar =
    | NeonDatabaseUrl | OpenAIApiKey | AnthropicApiKey | EmbeddingProvider
    | LlmProvider | OllamaUrl | OllamaModel | OllamaLlmModel

  /** The name each variable has in the process environment. */
  function VariableName(v: EnvVar): string {
    match v
    case NeonDatabaseUrl => "NEON_DATABASE_URL"
    case OpenAIApiKey => "OPENAI_API_KEY"
    case AnthropicApiKey => "ANTHROPIC_API_KEY"
    case EmbeddingProvider => "EMBEDDING_PROVIDER"
    case LlmProvider => "LLM_PROVIDER"
    case OllamaUrl => "OLLAMA_URL"
    case OllamaModel => "OLLAMA_MODEL"
    case OllamaLlmModel => "OLLAMA_LLM_MODEL"
  }

  /** The process environment (after the optional `.env` file has been merged
      in), restricted to the variables above: the value set for each. */
  type Environment = map<EnvVar, string>

  /** `os.Getenv`: an unset variable reads as the empty string. */
  function Getenv(env: Environment, name: EnvVar): (v: string)
    ensures name in env ==> v == env[name]
    ensures name !in env ==> v == ""
  {
    if name in env then env[name] else ""
  }

  /** `WithEnvDefaults`: every field is overwritten from its variable. */
  function FromEnvironment(env: Environment): (c: Config)
    ensures c.databaseUrl == Getenv(env, NeonDatabaseUrl)
    ensures c.openAIKey == Getenv(env, OpenAIApiKey)
    ensures c.anthropicKey == Getenv(env, AnthropicApiKey)
    ensures c.embeddingProvider == Getenv(env, EmbeddingProvider)
    ensures c.llmProvider == Getenv(env, LlmProvider)
    ensures c.ollamaUrl == Getenv(env, OllamaUrl)
    ensures c.ollamaModel == Getenv(env, OllamaModel)
    ensures c.ollamaLlmModel == Getenv(env, OllamaLlmModel)
  {
    Config(Getenv(env, NeonDatabaseUrl), Getenv(env, OpenAIApiKey),
           Getenv(env, AnthropicApiKey), Getenv(env, EmbeddingProvider),
           Getenv(env, LlmProvider), Getenv(env, OllamaUrl),
           Getenv(env, OllamaModel), Getenv(env, OllamaLlmModel))
  }

  /** A functional option: the three setters the package offers, or any other
      function of the configuration that may fail with a message. */
  datatype ConfigOption =
    | WithDatabaseURL(url: string)
    | WithOpenAIAPIKey(key: string)
    | WithAnthropicAPIKey(key: string)
    | Custom(apply: Config -> Result<Config, string>)

  function ApplyOption(c: Config, opt: ConfigOption): (r: Result<Config, string>)
    ensures opt.WithDatabaseURL? ==> r == Ok(c.(databaseUrl := opt.url))
    ensures opt.WithOpenAIAPIKey? ==> r == Ok(c.(openAIKey := opt.key))
    ensures opt.WithAnthropicAPIKey? ==> r == Ok(c.(anthropicKey := opt.key))
  {
    match opt
    case WithDatabaseURL(url) => Ok(c.(databaseUrl := url))
    case WithOpenAIAPIKey(key) => Ok(c.(openAIKey := key))
    case WithAnthropicAPIKey(key) => Ok(c.(anthropicKey := key))
    case Custom(apply) => apply(c)
  }

  /** The options in order; the first one that fails ends the run with its error. */
  function ApplyOptions(c: Config, opts: seq<ConfigOption>): (r: Result<Config, string>)
    ensures opts == [] ==> r == Ok(c)
    ensures (forall i :: 0 <= i < |opts| ==> !opts[i].Custom?) ==> r.Ok?
    decreases |opts|
  {
    if opts == [] then Ok(c)
    else
      match ApplyOption(c, opts[0])
      case Err(msg) => Err(msg)
      case Ok(c') => ApplyOptions(c', opts[1..])
  }

  /** Applying `a + b` is applying `a`, then `b` to what `a` produced. */
  lemma {:induction false} ApplyOptionsAppend(c: Config, a: seq<ConfigOption>, b: seq<ConfigOption>)
    ensures ApplyOptions(c, a + b) == match ApplyOptions(c, a)
                                      case Err(msg) => Err(msg)
                                      case Ok(c') => ApplyOptions(c', b)
    decreases |a|
  {
    if a == [] {
      assert a + b == b;
    } else {
      assert (a + b)[1..] == a[1..] + b;
      match ApplyOption(c, a[0])
      case Err(_) =>
      case Ok(c') => ApplyOptionsAppend(c', a[1..], b);
    }
  }

  const DefaultEmbeddingProvider: string := "openai"
  const DefaultLlmProvider: string := "ollama"
  const DefaultOllamaUrl: string := "http://localhost:11434"
  const DefaultOllamaModel: string := "nomic-embed-text"
  const DefaultOllamaLlmModel: string := "gemma3"

  /** `d` is `value` when `value` is set, and `default` otherwise. */
  predicate Defaulted(value: string, default: string, d: string) {
    d == if value == "" then default else value
  }

  /** The defaulting step: an empty provider setting takes its default and a set
      one is kept; the database URL and the keys are left alone. */
  function WithDefaults(c: Config): (d: Config)
    ensures Defaulted(c.embeddingProvider, DefaultEmbeddingProvider, d.embeddingProvider)
    ensures Defaulted(c.llmProvider, DefaultLlmProvider, d.llmProvider)
    ensures Defaulted(c.ollamaUrl, DefaultOllamaUrl, d.ollamaUrl)
    ensures Defaulted(c.ollamaModel, DefaultOllamaModel, d.ollamaModel)
    ensures Defaulted(c.ollamaLlmModel, DefaultOllamaLlmModel, d.ollamaLlmModel)
    ensures d.databaseUrl == c.databaseUrl && d.openAIKey == c.openAIKey && d.anthropicKey == c.anthropicKey
    ensures d.embeddingProvider != "" && d.llmProvider != "" && d.ollamaUrl != ""
            && d.ollamaModel != "" && d.ollamaLlmModel != ""
  {
    c.(embeddingProvider := if c.embeddingProvider == "" then DefaultEmbeddingProvider else c.embeddingProvider,
       llmProvider := if c.llmProvider == "" then DefaultLlmProvider else c.llmProvider,
       ollamaUrl := if c.ollamaUrl == "" then DefaultOllamaUrl else c.ollamaUrl,
       ollamaModel := if c.ollamaModel == "" then DefaultOllamaModel else c.ollamaModel,
       ollamaLlmModel := if c.ollamaLlmModel == "" then DefaultOllamaLlmModel else c.ollamaLlmModel)
  }

  /** Defaulting a configuration that has no empty provider setting changes nothing,
      so defaulting twice is defaulting once. */
  lemma DefaultsIdempotent(c: Config)
    ensures WithDefaults(WithDefaults(c)) == WithDefaults(c)
    ensures (&& c.embeddingProvider != "" && c.llmProvider != "" && c.ollamaUrl != ""
             && c.ollamaModel != "" && c.ollamaLlmModel != "") ==> WithDefaults(c) == c
  {
  }

  datatype ConfigError =
    | OptionFailed(message: string)
    | MissingDatabaseURL      // "NEON_DATABASE_URL is required"
    | MissingOpenAIKey        // OpenAI embeddings without a key
    | MissingAnthropicKey     // the Claude LLM without a key

  /** The requirements a defaulted configuration must meet: a database URL, an
      OpenAI key for OpenAI embeddings and an Anthropic key for Claude. Provider
      strings other than these two literals need no key. */
  predicate Usable(c: Config) {
    && c.databaseUrl != ""
    && (c.embeddingProvider == "openai" ==> c.openAIKey != "")
    && (c.llmProvider == "claude" ==> c.anthropicKey != "")
  }

  /** The validation step, checking the database URL, then the OpenAI key, then
      the Anthropic key. */
  function Validate(c: Config): (r: Result<Config, ConfigError>)
    ensures r.Ok? <==> Usable(c)
    ensures r.Ok? ==> r.value == c
    ensures c.databaseUrl == "" ==> r == Err(MissingDatabaseURL)
    ensures r == Err(MissingOpenAIKey) <==>
              c.databaseUrl != "" && c.embeddingProvider == "openai" && c.openAIKey == ""
    ensures r == Err(MissingAnthropicKey) <==>
              && c.databaseUrl != "" && !(c.embeddingProvider == "openai" && c.openAIKey == "")
              && c.llmProvider == "claude" && c.anthropicKey == ""
  {
    if c.databaseUrl == "" then Err(MissingDatabaseURL)
    else if c.embeddingProvider == "openai" && c.openAIKey == "" then Err(MissingOpenAIKey)
    else if c.llmProvider == "claude" && c.anthropicKey == "" then Err(MissingAnthropicKey)
    else Ok(c)
  }

  /** What loading the configuration answers. */
  type Loaded = Result<Config, ConfigError>

  /** `NewConfig(opts...)`: environment, options, defaults, validation. */
  function NewConfig(env: Environment, opts: seq<ConfigOption>): (r: Loaded)
    ensures r.Ok? ==> Usable(r.value)
    ensures r.Ok? ==> r.value.embeddingProvider != "" && r.value.llmProvider != ""
                      && r.value.ollamaUrl != "" && r.value.ollamaModel != "" && r.value.ollamaLlmModel != ""
    ensures r.Ok? ==> ApplyOptions(FromEnvironment(env), opts).Ok?
                      && r.value == WithDefaults(ApplyOptions(FromEnvironment(env), opts).value)
    ensures ApplyOptions(FromEnvironment(env), opts).Err? ==>
              r == Err(OptionFailed(ApplyOptions(FromEnvironment(env), opts).error))
  {
    match ApplyOptions(FromEnvironment(env), opts)
    case Err(msg) => Err(OptionFailed(msg))
    case Ok(c) => Validate(WithDefaults(c))
  }

  /** Options come after the environment and a later option overwrites what came
      before: a database URL given last is the one the configuration holds. */
  lemma LaterOptionWins(env: Environment, opts: seq<ConfigOption>, url: string)
    requires url != ""
    requires ApplyOptions(FromEnvironment(env), opts).Ok?
    ensures var r := NewConfig(env, opts + [WithDatabaseURL(url)]);
            r.Err? || r.value.databaseUrl == url
    ensures NewConfig(env, opts + [WithDatabaseURL(url)]) != Err(MissingDatabaseURL)
  {
    ApplyOptionsAppend(FromEnvironment(env), opts, [WithDatabaseURL(url)]);
  }

  /** The first failing option decides the outcome whatever follows it. */
  lemma FirstFailureAborts(env: Environment, opts: seq<ConfigOption>, rest: seq<ConfigOption>)
    requires ApplyOptions(FromEnvironment(env), opts).Err?
    ensures NewConfig(env, opts + rest) == Err(OptionFailed(ApplyOptions(FromEnvironment(env), opts).error))
  {
    ApplyOptionsAppend(FromEnvironment(env), opts, rest);
  }

  /** With no options, loading succeeds exactly when the environment names a
      database, gives an OpenAI key unless the embedding provider is set to
      something other than "openai", and gives an Anthropic key if the LLM
      provider is "claude" (the default, "ollama", needs none). */
  lemma EnvironmentOnly(env: Environment)
    ensures NewConfig(env, []).Ok? <==>
              && Getenv(env, NeonDatabaseUrl) != ""
              && (Getenv(env, EmbeddingProvider) in {"", "openai"} ==> Getenv(env, OpenAIApiKey) != "")
              && (Getenv(env, LlmProvider) == "claude" ==> Getenv(env, AnthropicApiKey) != "")
  {
  }

  /** With no options, a loaded configuration holds the environment's values:
      the URL and keys as set, and each provider setting as set or, when unset
      or empty, its default. */
  lemma EnvironmentValues(env: Environment)
    requires NewConfig(env, []).Ok?
    ensures var c := NewConfig(env, []).value;
            && c.databaseUrl == Getenv(env, NeonDatabaseUrl)
            && c.openAIKey == Getenv(env, OpenAIApiKey)
            && c.anthropicKey == Getenv(env, AnthropicApiKey)
            && Defaulted(Getenv(env, EmbeddingProvider), DefaultEmbeddingProvider, c.embeddingProvider)
            && Defaulted(Getenv(env, LlmProvider), DefaultLlmProvider, c.llmProvider)
            && Defaulted(Getenv(env, OllamaUrl), DefaultOllamaUrl, c.ollamaUrl)
            && Defaulted(Getenv(env, OllamaModel), DefaultOllamaModel, c.ollamaModel)
            && Defaulted(Getenv(env, OllamaLlmModel), DefaultOllamaLlmModel, c.ollamaLlmModel)
  {
  }
}

=== FILE: effects.dfy ===
/** What one CLI invocation does to the outside world: the calls it makes on
    its collaborators, in order, and how it ends. A command returns its outcome
    together with this trace, so "never called", "called once" and "in this
    order" are statements about a sequence. */
module Effects {
  import opened Wrappers
  import opened Models
  import opened Config
  import opened Store
  import opened Embedding
  import opened Llm

  datatype Call =
    | LoadConfig                                              // `models.NewConfig()`
    | ConnectDatabase                                         // `db.New`
    | ExactLookup(make: string, model: string, year: int)     // `GetByMakeModelYear`
    | Embed(embedder: EmbedBackend, text: string)             // `GetEmbedding`
    | Search(query: Vector, limit: int)                       // `SimilaritySearch`
    | Generate(generator: LlmBackend, make: string, model: string, year: int)  // `QueryEVSpecs`
    | Insert(row: Row)                                        // `InsertEVSpec`
    | RunMigration(op: MigrationOp)                           // `MigrateUp`/`Down`/`Steps`

  /** The kind of a call, without its arguments. */
  datatype Kind = LoadConfigKind | ConnectKind | ExactKind | EmbedKind | SearchKind
                | GenerateKind | InsertKind | MigrationKind

  function KindOf(c: Call): Kind {
    match c
    case LoadConfig => LoadConfigKind
    case ConnectDatabase => ConnectKind
    case ExactLookup(_, _, _) => ExactKind
    case Embed(_, _) => EmbedKind
    case Search(_, _) => SearchKind
    case Generate(_, _, _, _) => GenerateKind
    case Insert(_) => InsertKind
    case RunMigration(_) => MigrationKind
  }

  /** The trace makes the calls of `plan` in order, each at most once, stopping
      somewhere along it. */
  predicate FollowsPlan(trace: seq<Call>, plan: seq<Kind>) {
    |trace| <= |plan| && forall i :: 0 <= i < |trace| ==> KindOf(trace[i]) == plan[i]
  }

  /** How many calls of kind `k` the trace makes. */
  function CountKind(trace: seq<Call>, k: Kind): (n: nat)
    ensures n <= |trace|
    ensures n == 0 <==> forall i :: 0 <= i < |trace| ==> KindOf(trace[i]) != k
  {
    if trace == [] then 0
    else (if KindOf(trace[0]) == k then 1 else 0) + CountKind(trace[1..], k)
  }

  /** A trace that follows a plan without repeated kinds makes each kind of call
      at most once. */
  lemma {:induction false} PlanCallsOnce(trace: seq<Call>, plan: seq<Kind>, k: Kind)
    requires FollowsPlan(trace, plan)
    requires forall i, j :: 0 <= i < j < |plan| ==> plan[i] != plan[j]
    ensures CountKind(trace, k) <= 1
  {
    if trace != [] {
      assert FollowsPlan(trace[1..], plan[1..]);
      PlanCallsOnce(trace[1..], plan[1..], k);
      if KindOf(trace[0]) == k {
        forall i | 0 <= i < |trace[1..]|
          ensures KindOf(trace[1..][i]) != k
        {
          assert KindOf(trace[1..][i]) == plan[i + 1];
        }
      }
    }
  }

  /** A trace that follows a plan makes no call of a kind the plan lacks. */
  lemma PlanExcludes(trace: seq<Call>, plan: seq<Kind>, k: Kind)
    requires FollowsPlan(trace, plan)
    requires forall i :: 0 <= i < |plan| ==> plan[i] != k
    ensures CountKind(trace, k) == 0
  {
    forall i | 0 <= i < |trace|
      ensures KindOf(trace[i]) != k
    {
      assert KindOf(trace[i]) == plan[i];
    }
  }

  datatype CommandError =
    | InvalidYear(text: string)              // "invalid year: ..."
    | ConfigFailed(config: ConfigError)      // "failed to load configuration"
    | DatabaseUnreachable                    // "failed to connect to database"
    | LookupFailed(lookup: DbError)          // "database query error"
    | EmbeddingFailed(embed: EmbedError)     // "failed to get/generate embedding"
    | SearchFailed(search: DbError)          // "similarity search error"
    | LlmFailed(llm: LlmError)               // "LLM query error"
    | InsertFailed(insert: DbError)          // "failed to insert spec"
    | MigrationFailed(migrate: MigrateError) // "failed to run migrations", ...
    | InvalidDirection(direction: string)    // "invalid direction: ..."

  /** The last call made before the command reports `e`: the call whose answer
      was the error, or for a bad direction argument the connection that precedes
      the check; `None` when the error comes before any call. */
  function LastCall(e: CommandError): Option<Kind> {
    match e
    case InvalidYear(_) => None
    case ConfigFailed(_) => Some(LoadConfigKind)
    case DatabaseUnreachable => Some(ConnectKind)
    case LookupFailed(_) => Some(ExactKind)
    case EmbeddingFailed(_) => Some(EmbedKind)
    case SearchFailed(_) => Some(SearchKind)
    case LlmFailed(_) => Some(GenerateKind)
    case InsertFailed(_) => Some(InsertKind)
    case MigrationFailed(_) => Some(MigrationKind)
    case InvalidDirection(_) => Some(ConnectKind)
  }

  /** An invocation's outcome and the calls it made. */
  datatype Run<T> = Run(outcome: Result<T, CommandError>, trace: seq<Call>)

  /** An error run makes no call after the one that failed. */
  predicate StopsAtFailure<T>(r: Run<T>) {
    r.outcome.Err? ==>
      match LastCall(r.outcome.error)
      case None => r.trace == []
      case Some(k) => r.trace != [] && KindOf(r.trace[|r.trace| - 1]) == k
  }

  /** A run that made the one call `c` and ended with `outcome`; an error must
      be one that call can produce. */
  function Single<T>(c: Call, outcome: Result<T, CommandError>): (r: Run<T>)
    requires outcome.Err? ==> LastCall(outcome.error) == Some(KindOf(c))
    ensures r.outcome == outcome && r.trace == [c]
    ensures FollowsPlan(r.trace, [KindOf(c)]) && StopsAtFailure(r)
  {
    Run(outcome, [c])
  }

  /** The run `r` preceded by the call `c`: if `r` follows `plan` and stops at
      its failure, the whole run follows `[KindOf(c)] + plan` and stops there too. */
  function Before<T>(c: Call, r: Run<T>, plan: seq<Kind>): (r': Run<T>)
    requires FollowsPlan(r.trace, plan) && r.trace != [] && StopsAtFailure(r)
    ensures r'.outcome == r.outcome && r'.trace == [c] + r.trace
    ensures FollowsPlan(r'.trace, [KindOf(c)] + plan) && r'.trace != [] && StopsAtFailure(r')
  {
    var t := [c] + r.trace;
    assert t[|t| - 1] == r.trace[|r.trace| - 1];
    assert forall i :: 0 < i < |t| ==> t[i] == r.trace[i - 1];
    Run(r.outcome, t)
  }
}

=== FILE: embedding.dfy ===
/** The embedding client: provider dispatch, the checks on each provider's
    answer, and the canonical query text both the writer and the reader embed. */
module Embedding {
  import opened Wrappers
  import opened Numbers
  import opened Models
  import opened Http

  datatype EmbedBackend = OpenAIBackend | OllamaEmbedBackend

  datatype EmbedError =
    | RequestFailed          // marshal, request, send or decode error
    | BadStatus(status: int)
    | NoEmbeddingData

  /** An embedding service: what it answers when `backend` is asked to embed a
      text. For OpenAI the body is the `data` list's vectors, for Ollama the
      `embeddings` list. */
  type EmbedService = (EmbedBackend, string) -> Reply<seq<Vector>>

  /** `GetEmbedding` switches on the provider: only "ollama" selects Ollama, every
      other string (including "openai" and "") falls through to OpenAI. */
  function EmbedBackendFor(provider: string): (b: EmbedBackend)
    ensures b == OllamaEmbedBackend <==> provider == "ollama"
  {
    if provider == "ollama" then OllamaEmbedBackend else OpenAIBackend
  }

  /** The checks each provider's path makes on the reply. OpenAI needs a
      non-empty `data` list and returns its first vector whatever its length;
      Ollama also needs that first vector to be non-empty. */
  function Unpack(backend: EmbedBackend, reply: Reply<seq<Vector>>): (r: Result<Vector, EmbedError>)
    ensures reply.Failed? ==> r == Err(RequestFailed)
    ensures reply.Delivered? && reply.status != StatusOK ==> r == Err(BadStatus(reply.status))
    ensures r.Ok? <==> && reply.Delivered? && reply.status == StatusOK && reply.body != []
                       && (backend == OllamaEmbedBackend ==> reply.body[0] != [])
    ensures r.Ok? ==> r.value == reply.body[0]
  {
    match reply
    case Failed => Err(RequestFailed)
    case Delivered(status, vectors) =>
      if status != StatusOK then Err(BadStatus(status))
      else if vectors == [] then Err(NoEmbeddingData)
      else if backend == OllamaEmbedBackend && vectors[0] == [] then Err(NoEmbeddingData)
      else Ok(vectors[0])
  }

  /** `GetEmbedding` for the configured provider string. */
  function GetEmbedding(provider: string, text: string, service: EmbedService): (r: Result<Vector, EmbedError>)
    ensures r.Ok? ==> service(EmbedBackendFor(provider), text).Delivered?
    ensures r.Ok? && provider == "ollama" ==> |r.value| > 0
    ensures var reply := service(EmbedBackendFor(provider), text);
            r.Ok? <==> && reply.Delivered? && reply.status == StatusOK && reply.body != []
                       && (provider == "ollama" ==> reply.body[0] != [])
    ensures var reply := service(EmbedBackendFor(provider), text);
            reply.Delivered? && reply.status != StatusOK ==> r == Err(BadStatus(reply.status))
    ensures var reply := service(EmbedBackendFor(provider), text);
            r.Ok? ==> r.value == reply.body[0]
  {
    Unpack(EmbedBackendFor(provider), service(EmbedBackendFor(provider), text))
  }

  const QuerySuffix: string := " battery specifications"

  /** `BuildQueryText`: "<make> <model> <year> battery specifications". */
  function BuildQueryText(make: string, model: string, year: int): string {
    make + " " + model + " " + FormatInt(year) + QuerySuffix
  }

  /** The query text starts with the make and a space, carries the model right
      after it, and ends with the fixed suffix. */
  lemma QueryTextLayout(make: string, model: string, year: int)
    ensures var r := BuildQueryText(make, model, year);
            && |r| > |make| + |model| + |QuerySuffix| + 1
            && r[..|make|] == make && r[|make|] == ' '
            && r[|make| + 1..|make| + 1 + |model|] == model
            && r[|r| - |QuerySuffix|..] == QuerySuffix
  {
    var r := BuildQueryText(make, model, year);
    assert r == make + (" " + (model + (" " + FormatInt(year) + QuerySuffix)));
  }

  predicate NoSpaceChar(s: string) {
    forall i :: 0 <= i < |s| ==> s[i] != ' '
  }

  /** A word without spaces after the last space is recovered from the joined text. */
  lemma SplitAtLastSpace(a: string, d: string, a': string, d': string)
    requires NoSpaceChar(d) && NoSpaceChar(d')
    requires a + " " + d == a' + " " + d'
    ensures a == a' && d == d'
  {
    var x := a + " " + d;
    var x' := a' + " " + d';
    // Each side's last space sits at the length of its prefix.
    assert x[|a|] == ' ' && x'[|a'|] == ' ';
    assert x'[|a|] == ' ' && x[|a'|] == ' ';
    assert |a| == |a'|;
    assert a == x[..|a|] && a' == x'[..|a'|];
    assert d == x[|a| + 1..] && d' == x'[|a'| + 1..];
  }

  /** The text determines the year and the joined "<make> <model>" and nothing
      more: two queries share a text exactly when they share both. */
  lemma QueryTextDeterminesYearAndName(make: string, model: string, year: int, make': string, model': string, year': int)
    requires Int64Min <= year <= Int64Max && Int64Min <= year' <= Int64Max
    ensures BuildQueryText(make, model, year) == BuildQueryText(make', model', year')
            <==> year == year' && make + " " + model == make' + " " + model'
  {
    var name, name' := make + " " + model, make' + " " + model';
    var d, d' := FormatInt(year), FormatInt(year');
    var t, t' := BuildQueryText(make, model, year), BuildQueryText(make', model', year');
    var core, core' := name + " " + d, name' + " " + d';
    assert t == core + QuerySuffix;
    assert t' == core' + QuerySuffix;
    if t == t' {
      assert core == t[..|t| - |QuerySuffix|];
      assert core' == t'[..|t'| - |QuerySuffix|];
      SplitAtLastSpace(name, d, name', d');
      FormatIntInjective(year, year');
    }
  }

  /** Splitting the words differently between make and model yields the same
      text: ("A B", "C") and ("A", "B C") embed identically. */
  lemma QueryTextNotInjective(year: int)
    requires Int64Min <= year <= Int64Max
    ensures BuildQueryText("A B", "C", year) == BuildQueryText("A", "B C", year)
  {
    QueryTextDeterminesYearAndName("A B", "C", year, "A", "B C", year);
  }
}

=== FILE: http.dfy ===
/** What a call to a remote HTTP service can come back with. */
module Http {

  /** `Failed` stands for every error other than a delivered status:
      marshalling the request, building it, sending it, or decoding the JSON
      reply of a 200 answer. */
  datatype Reply<T> = Delivered(status: int, body: T) | Failed

  const StatusOK: int := 200
}

=== FILE: llm.dfy ===
/** The generative fallback: provider dispatch, the two transport paths and the
    best-effort parser that turns free text into a record. */
module Llm {
  import opened Wrappers
  import opened Text
  import opened Numbers
  import opened Models
  import opened Patterns
  import opened Http

  datatype LlmBackend = ClaudeBackend | OllamaBackend

  datatype LlmError =
    | RequestFailed         // marshal, request, send or decode error
    | BadStatus(status: int)
    | NoContent             // Claude answered with an empty content list
    | NoResponse            // Ollama answered with an empty response string
    | Unparseable           // no field could be read from the answer

  /** What the two services answer to the prompt built for one query: Claude a
      list of content texts, Ollama one response string. */
  datatype LlmReplies = LlmReplies(claude: Reply<seq<string>>, ollama: Reply<string>)

  /** `QueryEVSpecs` switches on the provider: only "ollama" selects Ollama, every
      other string (including "claude" and "") falls through to Claude. */
  function LlmBackendFor(provider: string): (b: LlmBackend)
    ensures b == OllamaBackend <==> provider == "ollama"
  {
    if provider == "ollama" then OllamaBackend else ClaudeBackend
  }

  /** A numeric field: the captured run parsed as a float, or 0 when the pattern
      does not match or the run is not a valid float. */
  function ExtractNumber(p: Pattern, text: string): (v: real)
    requires p.UnitPattern?
    ensures v >= 0.0
    ensures Submatch(p, text).None? ==> v == 0.0
  {
    match Submatch(p, text)
    case None => 0.0
    case Some(run) =>
      match ParseFloat(run)
      case None => 0.0
      case Some(x) => x
  }

  /** The chemistry field: the capture with surrounding white space trimmed, or "". */
  function ExtractChemistry(text: string): (r: string)
    ensures r != [] ==> !IsSpace(r[0]) && !IsSpace(r[|r| - 1])
    ensures r == [] <==> Submatch(ChemistryPattern, text).None? || AllSpace(Submatch(ChemistryPattern, text).value)
  {
    match Submatch(ChemistryPattern, text)
    case None => ""
    case Some(c) => TrimSpace(c)
  }

  /** `parseEVSpecs`: read the three fields independently; fail only when none
      of them yields anything, i.e. both numbers are 0 and the chemistry is empty. */
  function ParseEVSpecs(text: string, make: string, model: string, year: int): (r: Result<EVSpec, LlmError>)
    ensures r.Err? <==> ExtractNumber(CapacityPattern, text) == 0.0
                        && ExtractNumber(PowerPattern, text) == 0.0
                        && ExtractChemistry(text) == ""
    ensures r.Err? ==> r.error == Unparseable
    ensures r.Ok? ==> r.value.make == make && r.value.model == model && r.value.year == year
    ensures r.Ok? ==> r.value.confidence == LLMConfidenceScore && r.value.source == SourceLlm
    ensures r.Ok? ==> && r.value.capacity == ExtractNumber(CapacityPattern, text)
                      && r.value.power == ExtractNumber(PowerPattern, text)
                      && r.value.chemistry == ExtractChemistry(text)
    ensures r.Ok? ==> r.value.capacity >= 0.0 && r.value.power >= 0.0
  {
    var spec := EVSpec(make, model, year,
                       ExtractNumber(CapacityPattern, text),
                       ExtractNumber(PowerPattern, text),
                       ExtractChemistry(text),
                       LLMConfidenceScore, SourceLlm);
    if spec.capacity == 0.0 && spec.power == 0.0 && spec.chemistry == "" then Err(Unparseable)
    else Ok(spec)
  }

  /** `queryClaude` after the HTTP round trip: a non-200 status, an empty
      content list or an unparseable first text is an error, never a partial record. */
  function QueryClaude(reply: Reply<seq<string>>, make: string, model: string, year: int): (r: Result<EVSpec, LlmError>)
    ensures reply.Failed? ==> r == Err(RequestFailed)
    ensures reply.Delivered? && reply.status != StatusOK ==> r == Err(BadStatus(reply.status))
    ensures reply.Delivered? && reply.status == StatusOK && reply.body == [] ==> r == Err(NoContent)
    ensures r.Ok? <==> reply.Delivered? && reply.status == StatusOK && reply.body != []
                       && ParseEVSpecs(reply.body[0], make, model, year).Ok?
    ensures r.Ok? ==> r == ParseEVSpecs(reply.body[0], make, model, year)
  {
    match reply
    case Failed => Err(RequestFailed)
    case Delivered(status, content) =>
      if status != StatusOK then Err(BadStatus(status))
      else if content == [] then Err(NoContent)
      else
        match ParseEVSpecs(content[0], make, model, year)
        case Err(_) => Err(Unparseable)
        case Ok(spec) => Ok(spec)
  }

  /** `queryOllama` after the HTTP round trip: an empty response is an error. */
  function QueryOllama(reply: Reply<string>, make: string, model: string, year: int): (r: Result<EVSpec, LlmError>)
    ensures reply.Failed? ==> r == Err(RequestFailed)
    ensures reply.Delivered? && reply.status != StatusOK ==> r == Err(BadStatus(reply.status))
    ensures reply.Delivered? && reply.status == StatusOK && reply.body == "" ==> r == Err(NoResponse)
    ensures r.Ok? <==> reply.Delivered? && reply.status == StatusOK && reply.body != ""
                       && ParseEVSpecs(reply.body, make, model, year).Ok?
    ensures r.Ok? ==> r == ParseEVSpecs(reply.body, make, model, year)
  {
    match reply
    case Failed => Err(RequestFailed)
    case Delivered(status, response) =>
      if status != StatusOK then Err(BadStatus(status))
      else if response == "" then Err(NoResponse)
      else
        match ParseEVSpecs(response, make, model, year)
        case Err(_) => Err(Unparseable)
        case Ok(spec) => Ok(spec)
  }

  /** `QueryEVSpecs`: one provider is asked, chosen from the configured string. */
  function QueryEVSpecs(provider: string, make: string, model: string, year: int, replies: LlmReplies): (r: Result<EVSpec, LlmError>)
    ensures r.Ok? ==> r.value.make == make && r.value.model == model && r.value.year == year
    ensures r.Ok? ==> r.value.confidence == LLMConfidenceScore && r.value.source == SourceLlm
  {
    match LlmBackendFor(provider)
    case OllamaBackend => QueryOllama(replies.ollama, make, model, year)
    case ClaudeBackend => QueryClaude(replies.claude, make, model, year)
  }

  /** Only the exact string "ollama" reaches Ollama; every other provider
      string, including the empty one and "Ollama", reaches Claude. */
  lemma ProviderRouting(provider: string, make: string, model: string, year: int, replies: LlmReplies)
    ensures provider == "ollama" ==> QueryEVSpecs(provider, make, model, year, replies) == QueryOllama(replies.ollama, make, model, year)
    ensures provider != "ollama" ==> QueryEVSpecs(provider, make, model, year, replies) == QueryClaude(replies.claude, make, model, year)
  {
  }

  // ---------------------------------------------------------------------------
  // What the parser reads.
  // ---------------------------------------------------------------------------

  /** A numeric field comes from the leftmost match of its pattern: the run
      captured there, parsed, or 0 when that run is not a valid float. */
  lemma NumberFromLeftmostMatch(p: Pattern, text: string, i: nat, run: string)
    requires p.UnitPattern? && i <= |text|
    requires MatchAt(p, text, i) == Some(run)
    requires forall q :: 0 <= q < i ==> MatchAt(p, text, q).None?
    ensures ExtractNumber(p, text) == (if HasDigit(run) && DotCount(run) <= 1 then ParseFloat(run).value else 0.0)
  {
    SubmatchAtLeftmost(p, text, i);
  }

  /** A captured run such as `1.2.3` or `.` leaves its field at 0 instead of failing the parse. */
  lemma MalformedRunLeavesZero(p: Pattern, text: string)
    requires p.UnitPattern?
    requires Submatch(p, text).Some?
    requires DotCount(Submatch(p, text).value) > 1 || !HasDigit(Submatch(p, text).value)
    ensures ExtractNumber(p, text) == 0.0
  {
  }

  /** The power pattern asks only for `kW`, so `Power: 200 kWh` is read as 200 kW. */
  lemma PowerAcceptsKWh(text: string, i: nat, ds: nat, de: nat, ue: nat)
    requires UnitSplit("power:", "kwh", text, i, ds, de, ue)
    requires forall q :: 0 <= q < i ==> MatchAt(PowerPattern, text, q).None?
    ensures Submatch(PowerPattern, text) == Some(text[ds..de])
    ensures var run := text[ds..de];
            ExtractNumber(PowerPattern, text) == (if HasDigit(run) && DotCount(run) <= 1 then ParseFloat(run).value else 0.0)
  {
    UnitPrefixAccepts("power:", "kw", "kwh", text, i, ds, de, ue);
    SubmatchAtLeftmost(PowerPattern, text, i);
    NumberFromLeftmostMatch(PowerPattern, text, i, text[ds..de]);
  }

  /** Chemistry is the rest of the line that follows `chemistry:` and any white
      space (newlines included), trimmed; when only white space follows the
      marker up to the end of the text the field is empty. */
  lemma ChemistryIsRestOfLine(text: string, i: nat)
    requires i <= |text|
    requires MatchAt(ChemistryPattern, text, i).Some?
    requires forall q :: 0 <= q < i ==> MatchAt(ChemistryPattern, text, q).None?
    ensures var j := SkipSpaces(text, i + |"chemistry:"|);
            ExtractChemistry(text) == if j < |text| then TrimSpace(text[j..LineEnd(text, j)]) else ""
  {
    SubmatchAtLeftmost(ChemistryPattern, text, i);
    var j := SkipSpaces(text, i + |"chemistry:"|);
    if j == |text| {
      TrailingSpaceCapture(text, i);
    }
  }

  /** When only white space follows the marker, `\s*` gives back one last
      character for `[^\n]+`, and that character is itself white space. */
  lemma TrailingSpaceCapture(text: string, i: nat)
    requires i <= |text|
    requires MatchAt(ChemistryPattern, text, i).Some?
    requires SkipSpaces(text, i + |"chemistry:"|) == |text|
    ensures AllSpace(MatchAt(ChemistryPattern, text, i).value)
  {
    var j := |text|;
    var s := LineStartAt("chemistry:", text, i).value;
    assert LineStartAt("chemistry:", text, i) == LastNonNewline(text, i + |"chemistry:"|, j);
    assert s + 1 == |text| || text[s + 1] == '\n';
    assert LineEnd(text, s) == LineEnd(text, s + 1) == s + 1;
    assert IsRegexSpace(text[s]);
  }

  /** Success is decided by the fields alone: an answer whose first capacity
      match reads `0` (as in `Capacity: 0 kWh`) and that has neither a power nor
      a chemistry match fails just like an answer with no fields. */
  lemma ExplicitZeroCapacityFails(text: string, make: string, model: string, year: int, i: nat, ds: nat, ue: nat)
    requires UnitSplit("capacity:", "kwh", text, i, ds, ds + 1, ue) && text[ds] == '0'
    requires forall q :: 0 <= q < i ==> MatchAt(CapacityPattern, text, q).None?
    requires Submatch(PowerPattern, text).None? && Submatch(ChemistryPattern, text).None?
    ensures ParseEVSpecs(text, make, model, year) == Err(Unparseable)
  {
    ZeroCapacityReadsZero(text, i, ds, ue);
    assert ExtractNumber(PowerPattern, text) == 0.0;
    assert ExtractChemistry(text) == "";
  }

  /** A capacity match whose run is the single digit `0` yields capacity 0. */
  lemma ZeroCapacityReadsZero(text: string, i: nat, ds: nat, ue: nat)
    requires UnitSplit("capacity:", "kwh", text, i, ds, ds + 1, ue) && text[ds] == '0'
    requires forall q :: 0 <= q < i ==> MatchAt(CapacityPattern, text, q).None?
    ensures ExtractNumber(CapacityPattern, text) == 0.0
  {
    UnitSplitDeterminesMatch("capacity:", "kwh", text, i, ds, ds + 1, ue);
    var run := text[ds..ds + 1];
    assert run == FormatNat(0);
    ParseFloatFormatNat(0);
    assert HasDigit(run) by { assert IsDigit(run[0]); }
    NumberFromLeftmostMatch(CapacityPattern, text, i, run);
  }
}

=== FILE: migrate.dfy ===
/** The migrate command: a non-zero `--steps` runs that many steps; otherwise
    the direction argument, "up" by default, selects a full migration up or a
    roll-back of the last one. */
module MigrateCommand {
  import opened Wrappers
  import opened Config
  import opened Store
  import opened Effects

  /** The calls a migrate can make, in the order it makes them. */
  const MigratePlan: seq<Kind> := [LoadConfigKind, ConnectKind, MigrationKind]

  /** golang-migrate's answer to each operation it may be asked to run. */
  type Engine = MigrationOp -> EngineReply

  /** The operation the flag and arguments select, or the direction rejected.
      Only the first argument is read. */
  function SelectOperation(steps: int, args: seq<string>): (r: Result<MigrationOp, string>)
    ensures steps != 0 ==> r == Ok(MigrateSteps(steps))
    ensures steps == 0 && args == [] ==> r == Ok(MigrateUp)
    ensures steps == 0 && args != [] ==>
              && (r == Ok(MigrateUp) <==> args[0] == "up")
              && (r == Ok(MigrateDown) <==> args[0] == "down")
              && (r.Err? <==> args[0] != "up" && args[0] != "down")
              && (r.Err? ==> r.error == args[0])
  {
    if steps != 0 then Ok(MigrateSteps(steps))
    else
      var direction := if |args| > 0 then args[0] else "up";
      if direction == "up" then Ok(MigrateUp)
      else if direction == "down" then Ok(MigrateDown)
      else Err(direction)
  }

  /** Everything after the configuration: connect, check the arguments, then
      run the selected operation. A rejected direction is reported after the
      connection and runs nothing. */
  function ConnectAndMigrate(db: Database, steps: int, args: seq<string>, engine: Engine): (r: Run<()>)
    ensures FollowsPlan(r.trace, [ConnectKind, MigrationKind]) && r.trace != [] && StopsAtFailure(r)
    ensures |r.trace| == 2 ==> SelectOperation(steps, args).Ok?
                               && r.trace[1] == RunMigration(SelectOperation(steps, args).value)
  {
    if Connect(db).Err? then Single(ConnectDatabase, Err(DatabaseUnreachable))
    else
      match SelectOperation(steps, args)
      case Err(direction) => Single(ConnectDatabase, Err(InvalidDirection(direction)))
      case Ok(op) =>
        var ran := Migrate(op, engine(op));
        var r := Before(ConnectDatabase, Single(RunMigration(op), if ran.Err? then Err(MigrationFailed(ran.error)) else Ok(())),
                        [MigrationKind]);
        assert [ConnectKind] + [MigrationKind] == [ConnectKind, MigrationKind];
        r
  }

  /** `runMigrate`: load the configuration, connect, then run at most one
      migration operation. `loaded` is what loading the configuration answers
      (`NewConfig(env, [])` in the command). */
  function RunMigrate(loaded: Loaded, db: Database, steps: int, args: seq<string>, engine: Engine): (r: Run<()>)
    ensures FollowsPlan(r.trace, MigratePlan) && r.trace != [] && StopsAtFailure(r)
    ensures |r.trace| == 3 ==> SelectOperation(steps, args).Ok?
                               && r.trace[2] == RunMigration(SelectOperation(steps, args).value)
  {
    match loaded
    case Err(e) => Single(LoadConfig, Err(ConfigFailed(e)))
    case Ok(_) =>
      var r := Before(LoadConfig, ConnectAndMigrate(db, steps, args, engine), [ConnectKind, MigrationKind]);
      assert [LoadConfigKind] + [ConnectKind, MigrationKind] == MigratePlan;
      r
  }

  /** At most one migration operation runs per invocation. */
  lemma OneMigrationAtMost(loaded: Loaded, db: Database, steps: int, args: seq<string>, engine: Engine)
    ensures CountKind(RunMigrate(loaded, db, steps, args, engine).trace, MigrationKind) <= 1
  {
    PlanCallsOnce(RunMigrate(loaded, db, steps, args, engine).trace, MigratePlan, MigrationKind);
  }

  /** A non-zero step count decides the run: the direction argument is ignored. */
  lemma StepsIgnoreDirection(loaded: Loaded, db: Database, steps: int, args: seq<string>, engine: Engine)
    requires steps != 0
    ensures RunMigrate(loaded, db, steps, args, engine) == RunMigrate(loaded, db, steps, [], engine)
  {
  }

  /** Directions are matched exactly: "Up" and "DOWN" are rejected, and then no
      migration runs. */
  lemma DirectionIsCaseSensitive(loaded: Loaded, db: Database, engine: Engine)
    requires loaded.Ok? && db.reachable
    ensures RunMigrate(loaded, db, 0, ["Up"], engine).outcome == Err(InvalidDirection("Up"))
    ensures RunMigrate(loaded, db, 0, ["DOWN"], engine).outcome == Err(InvalidDirection("DOWN"))
    ensures CountKind(RunMigrate(loaded, db, 0, ["Up"], engine).trace, MigrationKind) == 0
  {
    assert SelectOperation(0, ["Up"]) == Err("Up");
    assert SelectOperation(0, ["DOWN"]) == Err("DOWN");
    var r := RunMigrate(loaded, db, 0, ["Up"], engine);
    assert r.trace == [LoadConfig, ConnectDatabase];
  }

  /** Migrating when nothing is pending succeeds: "no change" is not an error,
      whichever way the operation was selected. */
  lemma NoChangeSucceeds(loaded: Loaded, db: Database, steps: int, args: seq<string>, engine: Engine)
    requires loaded.Ok? && db.reachable && SelectOperation(steps, args).Ok?
    requires engine(SelectOperation(steps, args).value) == NoChange
    ensures RunMigrate(loaded, db, steps, args, engine).outcome == Ok(())
  {
  }

  /** Configuration and connection errors are reported before the arguments
      are looked at, so they take precedence over an invalid direction; an
      invalid direction is reported after connecting and runs nothing. */
  lemma SetupErrorsComeFirst(loaded: Loaded, db: Database, steps: int, args: seq<string>, engine: Engine)
    ensures var r := RunMigrate(loaded, db, steps, args, engine);
            && (loaded.Err? ==> r.outcome == Err(ConfigFailed(loaded.error)))
            && (loaded.Ok? && !db.reachable ==> r.outcome == Err(DatabaseUnreachable))
            && (loaded.Ok? && db.reachable && SelectOperation(steps, args).Err? ==>
                  && r.outcome == Err(InvalidDirection(SelectOperation(steps, args).error))
                  && r.trace == [LoadConfig, ConnectDatabase])
  {
  }

  /** A migrate succeeds exactly when it gets past configuration, connection
      and argument checks and the engine applies the operation or finds nothing
      to do. */
  lemma MigrateSucceedsWhen(loaded: Loaded, db: Database, steps: int, args: seq<string>, engine: Engine)
    ensures RunMigrate(loaded, db, steps, args, engine).outcome.Ok? <==>
              && loaded.Ok? && db.reachable && SelectOperation(steps, args).Ok?
              && engine(SelectOperation(steps, args).value) in {Applied, NoChange}
  {
  }
}

=== FILE: models.dfy ===
/** The record the whole program passes around, and its two confidence constants. */
module Models {

  /** An embedding: Go's `[]float32`, with the float rounding left out. */
  type Vector = seq<real>

  /** One vehicle's battery specification together with its provenance. */
  datatype EVSpec = EVSpec(
    make: string,
    model: string,
    year: int,
    capacity: real,    // kWh
    power: real,       // kW
    chemistry: string,
    confidence: real,  // 1.0 exact hit, 1 - distance for a neighbour, fixed for a generated answer
    source: string     // "database" or "llm"; empty on a record built for seeding
  )

  /** Minimum confidence a nearest neighbour needs before it is trusted. */
  const ConfidenceThreshold: real := 0.8

  /** Confidence every record read from a generated answer carries. */
  const LLMConfidenceScore: real := 0.5

  const SourceDatabase: string := "database"
  const SourceLlm: string := "llm"
}

=== FILE: numbers.dfy ===
/** Decimal text and numbers: the `%d` verb of `fmt`, `strconv.Atoi` and
    `strconv.ParseFloat` on the digit-and-dot runs the response patterns capture. */
module Numbers {
  import opened Wrappers

  const Int64Min: int := -0x8000_0000_0000_0000
  const Int64Max: int := 0x7FFF_FFFF_FFFF_FFFF

  predicate IsDigit(c: char) { '0' <= c <= '9' }

  predicate AllDigits(s: string) {
    forall i :: 0 <= i < |s| ==> IsDigit(s[i])
  }

  function DigitValue(c: char): nat
    requires IsDigit(c)
  {
    c as int - '0' as int
  }

  function DigitChar(d: nat): (c: char)
    requires d < 10
    ensures IsDigit(c) && DigitValue(c) == d
  {
    ('0' as int + d) as char
  }

  /** The natural number a string of decimal digits spells, most significant first. */
  function DigitsValue(s: string): nat
    requires AllDigits(s)
  {
    if s == [] then 0 else DigitsValue(s[..|s| - 1]) * 10 + DigitValue(s[|s| - 1])
  }

  /** The shortest decimal spelling of `n`: `fmt`'s `%d` of a non-negative value. */
  function FormatNat(n: nat): (r: string)
    ensures r != [] && AllDigits(r)
    ensures DigitsValue(r) == n
    ensures |r| > 1 ==> r[0] != '0'
  {
    if n < 10 then [DigitChar(n)]
    else
      var r := FormatNat(n / 10) + [DigitChar(n % 10)];
      assert r[..|r| - 1] == FormatNat(n / 10);
      r
  }

  /** `fmt`'s `%d` of any integer: a minus sign before the digits of a negative value. */
  function FormatInt(n: int): (r: string)
    ensures r != []
    ensures forall i :: 0 <= i < |r| ==> IsDigit(r[i]) || (i == 0 && r[i] == '-')
    ensures r[0] == '-' <==> n < 0
  {
    if n < 0 then "-" + FormatNat(-n) else FormatNat(n)
  }

  /** `strconv.Atoi`: an optional sign, then one or more decimal digits, whose
      value must fit a 64-bit `int`; anything else is a syntax or range error. */
  function Atoi(s: string): (r: Option<int>)
    ensures r.Some? ==> Int64Min <= r.value <= Int64Max
    ensures r.Some? ==> s != [] && (IsDigit(s[0]) || s[0] == '-' || s[0] == '+')
    ensures r.Some? ==> forall i :: 1 <= i < |s| ==> IsDigit(s[i])
    ensures r.Some? ==> IsDigit(s[|s| - 1])
  {
    var signed := s != [] && (s[0] == '-' || s[0] == '+');
    var digits := if signed then s[1..] else s;
    if digits == [] || !AllDigits(digits) then None
    else
      var v: int := if s[0] == '-' then 0 - DigitsValue(digits) as int else DigitsValue(digits);
      if Int64Min <= v <= Int64Max then Some(v) else None
  }

  /** Every `int` survives the trip through `%d` and back through `Atoi`. */
  lemma AtoiFormatInt(n: int)
    requires Int64Min <= n <= Int64Max
    ensures Atoi(FormatInt(n)) == Some(n)
  {
    if n < 0 {
      assert FormatInt(n)[1..] == FormatNat(-n);
    }
  }

  /** `%d` never spells two integers the same way. */
  lemma FormatIntInjective(a: int, b: int)
    requires Int64Min <= a <= Int64Max && Int64Min <= b <= Int64Max
    requires FormatInt(a) == FormatInt(b)
    ensures a == b
  {
    AtoiFormatInt(a);
    AtoiFormatInt(b);
  }

  predicate IsNumberChar(c: char) { IsDigit(c) || c == '.' }

  predicate AllNumberChars(s: string) {
    forall i :: 0 <= i < |s| ==> IsNumberChar(s[i])
  }

  predicate HasDigit(s: string) {
    exists i :: 0 <= i < |s| && IsDigit(s[i])
  }

  function DotCount(s: string): nat {
    if s == [] then 0 else (if s[0] == '.' then 1 else 0) + DotCount(s[1..])
  }

  lemma {:induction false} DotCountAppend(a: string, b: string)
    ensures DotCount(a + b) == DotCount(a) + DotCount(b)
  {
    if a != [] {
      assert (a + b)[1..] == a[1..] + b;
      DotCountAppend(a[1..], b);
    } else {
      assert a + b == b;
    }
  }

  /** A run of digits and dots without a dot is all digits. */
  lemma {:induction false} NoDotAllDigits(s: string)
    requires AllNumberChars(s) && DotCount(s) == 0
    ensures AllDigits(s)
  {
    if s != [] {
      NoDotAllDigits(s[1..]);
      assert forall i :: 1 <= i < |s| ==> s[i] == s[1..][i - 1];
    }
  }

  /** Position of the first dot. */
  function DotIndex(s: string): (k: nat)
    requires DotCount(s) > 0
    ensures k < |s| && s[k] == '.' && DotCount(s[..k]) == 0
    ensures DotCount(s) == 1 + DotCount(s[k + 1..])
  {
    if s[0] == '.' then 0
    else
      var k := 1 + DotIndex(s[1..]);
      assert s[..k] == [s[0]] + s[1..][..k - 1];
      assert s[1..][k..] == s[k + 1..];
      k
  }

  function Pow10(n: nat): (r: nat)
    ensures r > 0
  {
    if n == 0 then 1 else 10 * Pow10(n - 1)
  }

  /** The value of `whole.frac`: the whole digits plus the fraction digits
      scaled down by one power of ten each. */
  function ScaledValue(whole: string, frac: string): (v: real)
    requires AllDigits(whole) && AllDigits(frac)
    ensures v >= 0.0
  {
    DigitsValue(whole) as real + DigitsValue(frac) as real / Pow10(|frac|) as real
  }

  /** `strconv.ParseFloat(run, 64)` on a run of digits and dots: it succeeds
      exactly when the run holds a digit and at most one dot, and then yields the
      decimal value the run spells (rounding to float64 is not modelled). */
  function ParseFloat(run: string): (r: Option<real>)
    requires AllNumberChars(run)
    ensures r.Some? <==> HasDigit(run) && DotCount(run) <= 1
    ensures r.Some? ==> r.value >= 0.0
  {
    if DotCount(run) == 0 then
      NoDotAllDigits(run);
      if run == [] then None else
        assert IsDigit(run[0]);
        Some(DigitsValue(run) as real)
    else if DotCount(run) == 1 then
      var k := DotIndex(run);
      var whole := run[..k];
      var frac := run[k + 1..];
      assert forall i :: 0 <= i < |whole| ==> whole[i] == run[i];
      assert forall i :: 0 <= i < |frac| ==> frac[i] == run[k + 1 + i];
      NoDotAllDigits(whole);
      NoDotAllDigits(frac);
      if whole == [] && frac == [] then
        assert run == ".";
        None
      else
        assert whole != [] ==> IsDigit(run[0]);
        assert frac != [] ==> IsDigit(run[k + 1]);
        Some(ScaledValue(whole, frac))
    else
      None
  }

  /** A plain integer spelling parses back to that integer. */
  lemma ParseFloatFormatNat(n: nat)
    ensures ParseFloat(FormatNat(n)) == Some(n as real)
  {
    AllDigitsNoDot(FormatNat(n));
  }

  /** Digits written after other digits: the value shifts left by their count. */
  lemma {:induction false} DigitsValueAppend(w: string, f: string)
    requires AllDigits(w) && AllDigits(f)
    ensures AllDigits(w + f)
    ensures DigitsValue(w + f) == DigitsValue(w) * Pow10(|f|) + DigitsValue(f)
    decreases |f|
  {
    AllDigitsConcat(w, f);
    if f == [] {
      assert w + f == w;
    } else {
      var f' := f[..|f| - 1];
      AllDigitsPrefix(f, |f| - 1);
      assert (w + f)[..|w + f| - 1] == w + f';
      assert (w + f)[|w + f| - 1] == f[|f| - 1];
      DigitsValueAppend(w, f');
      ShiftStep(DigitsValue(w), Pow10(|f'|), DigitsValue(f'), DigitValue(f[|f| - 1]));
    }
  }

  lemma AllDigitsConcat(a: string, b: string)
    requires AllDigits(a) && AllDigits(b)
    ensures AllDigits(a + b)
  {
    forall i | 0 <= i < |a + b|
      ensures IsDigit((a + b)[i])
    {
      if i < |a| { assert (a + b)[i] == a[i]; } else { assert (a + b)[i] == b[i - |a|]; }
    }
  }

  lemma AllDigitsPrefix(s: string, n: nat)
    requires AllDigits(s) && n <= |s|
    ensures AllDigits(s[..n])
  {
    forall i | 0 <= i < n
      ensures IsDigit(s[..n][i])
    {
      assert s[..n][i] == s[i];
    }
  }

  lemma ShiftStep(a: nat, p: nat, b: nat, d: nat)
    ensures (a * p + b) * 10 + d == a * (10 * p) + (b * 10 + d)
  {
    calc {
      (a * p + b) * 10 + d;
      a * p * 10 + b * 10 + d;
      a * (10 * p) + (b * 10 + d);
    }
  }

  /** In `w + "." + f` with digit runs on both sides, the one dot is at `|w|`. */
  lemma DottedRunSplits(w: string, f: string)
    requires AllDigits(w) && AllDigits(f)
    ensures AllNumberChars(w + "." + f)
    ensures DotCount(w + "." + f) == 1
    ensures DotIndex(w + "." + f) == |w|
  {
    DottedRunChars(w, f);
    AllDigitsNoDot(w);
    AllDigitsNoDot(f);
    DotCountAppend(w, ".");
    DotCountAppend(w + ".", f);
    assert DotCount(".") == 1 by { assert "."[1..] == []; }
    DottedRunDotIndex(w, f);
  }

  lemma DottedRunChars(w: string, f: string)
    requires AllDigits(w) && AllDigits(f)
    ensures AllNumberChars(w + "." + f)
  {
    var s := w + "." + f;
    forall i | 0 <= i < |s|
      ensures IsNumberChar(s[i])
    {
      if i < |w| { assert s[i] == w[i]; }
      else if i > |w| { assert s[i] == f[i - |w| - 1]; }
    }
  }

  lemma DottedRunDotIndex(w: string, f: string)
    requires AllDigits(w) && DotCount(w + "." + f) > 0
    ensures DotIndex(w + "." + f) == |w|
  {
    var s := w + "." + f;
    var k := DotIndex(s);
    if k > |w| {
      assert s[..k][|w|] == '.';
      DotCountPositive(s[..k], |w|);
    }
  }

  /** A string holding a dot has a positive dot count. */
  lemma {:induction false} DotCountPositive(t: string, j: nat)
    requires j < |t| && t[j] == '.'
    ensures DotCount(t) > 0
    decreases j
  {
    if j > 0 {
      assert t[1..][j - 1] == t[j];
      DotCountPositive(t[1..], j - 1);
    }
  }

  /** A run with one dot reads as its whole part plus its scaled fraction. */
  lemma ParseFloatSplitsAtDot(run: string, k: nat)
    requires AllNumberChars(run) && DotCount(run) == 1 && DotIndex(run) == k
    requires AllDigits(run[..k]) && AllDigits(run[k + 1..]) && |run| > 1
    ensures ParseFloat(run) == Some(ScaledValue(run[..k], run[k + 1..]))
  {
    assert |run[..k]| + |run[k + 1..]| == |run| - 1;
  }

  /** Scaling a shifted total back down recovers the whole part plus the fraction. */
  lemma ScaleDown(a: nat, b: nat, p: nat, c: nat)
    requires p > 0 && c == a * p + b
    ensures c as real / p as real == a as real + b as real / p as real
  {
    assert c as real == a as real * p as real + b as real;
  }

  /** `whole.frac` is the digits of both read together, scaled down. */
  lemma ScaledValueShift(w: string, f: string)
    requires AllDigits(w) && AllDigits(f) && AllDigits(w + f)
    requires DigitsValue(w + f) == DigitsValue(w) * Pow10(|f|) + DigitsValue(f)
    ensures ScaledValue(w, f) == DigitsValue(w + f) as real / Pow10(|f|) as real
  {
    ScaleDown(DigitsValue(w), DigitsValue(f), Pow10(|f|), DigitsValue(w + f));
  }

  /** A run with one dot parses to the digits read as an integer, scaled down
      by one power of ten per digit after the dot: "75.5" is 755 / 10. */
  lemma ParseFloatDotted(w: string, f: string)
    requires AllDigits(w) && AllDigits(f) && w + f != []
    ensures AllNumberChars(w + "." + f)
    ensures ParseFloat(w + "." + f) == Some(DigitsValue(w + f) as real / Pow10(|f|) as real)
  {
    var s := w + "." + f;
    DottedRunSplits(w, f);
    assert s[..|w|] == w;
    assert s[|w| + 1..] == f;
    ParseFloatSplitsAtDot(s, |w|);
    assert ParseFloat(s) == Some(ScaledValue(w, f));
    DigitsValueAppend(w, f);
    ScaledValueShift(w, f);
  }

  lemma {:induction false} AllDigitsNoDot(s: string)
    requires AllDigits(s)
    ensures DotCount(s) == 0
  {
    if s != [] {
      AllDigitsNoDot(s[1..]);
    }
  }
}

=== FILE: patterns.dfy ===
/** The three response patterns compiled once by the LLM client:
      capacity  `(?i)capacity:\s*([0-9.]+)\s*kWh`
      power     `(?i)power:\s*([0-9.]+)\s*kW`
      chemistry `(?i)chemistry:\s*([^\n]+)`
    read the way RE2 runs them: the leftmost position where the pattern matches,
    and there the alternative its greedy, leftmost-first priorities prefer.
    `FindStringSubmatch` hands back that match's one capture group. */
module Patterns {
  import opened Wrappers
  import opened Text
  import opened Numbers

  datatype Pattern =
    /** `(?i)<marker>\s*([0-9.]+)\s*<unit>`; marker and unit are written in lower case. */
    | UnitPattern(marker: string, unit: string)
    /** `(?i)<marker>\s*([^\n]+)` */
    | LinePattern(marker: string)

  const CapacityPattern: Pattern := UnitPattern("capacity:", "kwh")
  const PowerPattern: Pattern := UnitPattern("power:", "kw")
  const ChemistryPattern: Pattern := LinePattern("chemistry:")

  /** A unit starts with a letter, so it can neither continue the number nor the
      white space in front of it. */
  predicate WellFormed(p: Pattern) {
    p.UnitPattern? ==> p.unit != [] && 'a' <= p.unit[0] <= 'z'
  }

  predicate SpacesBetween(text: string, lo: nat, hi: nat)
    requires lo <= hi <= |text|
  {
    forall m :: lo <= m < hi ==> IsRegexSpace(text[m])
  }

  predicate NumberBetween(text: string, lo: nat, hi: nat)
    requires lo <= hi <= |text|
  {
    forall m :: lo <= m < hi ==> IsNumberChar(text[m])
  }

  predicate NoNewlineBetween(text: string, lo: nat, hi: nat)
    requires lo <= hi <= |text|
  {
    forall m :: lo <= m < hi ==> text[m] != '\n'
  }

  /** Greedy `\s*` from `i`: the end of the longest white-space run there. */
  function SkipSpaces(text: string, i: nat): (j: nat)
    requires i <= |text|
    ensures i <= j <= |text| && SpacesBetween(text, i, j)
    ensures j < |text| ==> !IsRegexSpace(text[j])
    decreases |text| - i
  {
    if i < |text| && IsRegexSpace(text[i]) then SkipSpaces(text, i + 1) else i
  }

  /** Greedy `[0-9.]*` from `i`. */
  function SkipNumber(text: string, i: nat): (j: nat)
    requires i <= |text|
    ensures i <= j <= |text| && NumberBetween(text, i, j)
    ensures j < |text| ==> !IsNumberChar(text[j])
    decreases |text| - i
  {
    if i < |text| && IsNumberChar(text[i]) then SkipNumber(text, i + 1) else i
  }

  /** Greedy `[^\n]*` from `j`: the end of the line. */
  function LineEnd(text: string, j: nat): (k: nat)
    requires j <= |text|
    ensures j <= k <= |text| && NoNewlineBetween(text, j, k)
    ensures k < |text| ==> text[k] == '\n'
    decreases |text| - j
  {
    if j < |text| && text[j] != '\n' then LineEnd(text, j + 1) else j
  }

  /** The last position in [lo, hi) that is not a newline: where `[^\n]+` can
      start once `\s*` gives characters back one at a time from `hi`. */
  function LastNonNewline(text: string, lo: nat, hi: nat): (r: Option<nat>)
    requires lo <= hi <= |text|
    ensures r.Some? ==> lo <= r.value < hi && text[r.value] != '\n'
    ensures r.Some? ==> forall m :: r.value < m < hi ==> text[m] == '\n'
    ensures r.None? ==> forall m :: lo <= m < hi ==> text[m] == '\n'
    decreases hi - lo
  {
    if lo == hi then None
    else if text[hi - 1] != '\n' then Some(hi - 1)
    else LastNonNewline(text, lo, hi - 1)
  }

  /** Capture of a unit pattern anchored at `i`. White space, number characters
      and the unit's first letter are pairwise disjoint, so every greedy choice is
      forced and backtracking can never find another match. */
  function UnitMatchAt(marker: string, unit: string, text: string, i: nat): (r: Option<string>)
    requires i <= |text|
    ensures r.Some? ==> r.value != [] && AllNumberChars(r.value)
  {
    if !MatchesFoldAt(text, i, marker) then None
    else
      var ds := SkipSpaces(text, i + |marker|);
      var de := SkipNumber(text, ds);
      var ue := SkipSpaces(text, de);
      if ds < de && MatchesFoldAt(text, ue, unit) then
        assert forall m :: 0 <= m < de - ds ==> text[ds..de][m] == text[ds + m];
        Some(text[ds..de])
      else None
  }

  /** Where the capture of a line pattern anchored at `i` starts. Greedy `\s*`
      first takes the whole white-space run; only if that run reaches the end of
      the text does it give characters back, until `[^\n]` can match one. */
  function LineStartAt(marker: string, text: string, i: nat): (r: Option<nat>)
    requires i <= |text|
    ensures r.Some? ==> i + |marker| <= r.value < |text| && text[r.value] != '\n'
    ensures r.Some? ==> LineSplit(marker, text, i, r.value, LineEnd(text, r.value))
  {
    if !MatchesFoldAt(text, i, marker) then None
    else
      var ws := i + |marker|;
      var j := SkipSpaces(text, ws);
      if j < |text| then Some(j) else LastNonNewline(text, ws, j)
  }

  /** The capture group of pattern `p` if the pattern matches starting at `i`. */
  function MatchAt(p: Pattern, text: string, i: nat): (r: Option<string>)
    requires i <= |text|
  {
    match p
    case UnitPattern(marker, unit) => UnitMatchAt(marker, unit, text, i)
    case LinePattern(marker) =>
      match LineStartAt(marker, text, i)
      case None => None
      case Some(s) => Some(text[s..LineEnd(text, s)])
  }

  /** The leftmost match at or after `from`: its position and its capture. */
  function FirstMatch(p: Pattern, text: string, from: nat): (r: Option<(nat, string)>)
    requires from <= |text|
    ensures r.Some? ==> from <= r.value.0 <= |text| && MatchAt(p, text, r.value.0) == Some(r.value.1)
    decreases |text| - from
  {
    var here := MatchAt(p, text, from);
    if here.Some? then Some((from, here.value))
    else if from == |text| then None
    else FirstMatch(p, text, from + 1)
  }

  /** A position `FirstMatch` passes over before the one it reports, or any
      position at all when it reports none, does not match. */
  lemma {:induction false} FirstMatchSkips(p: Pattern, text: string, from: nat, q: nat)
    requires from <= q <= |text|
    requires FirstMatch(p, text, from).None? || q < FirstMatch(p, text, from).value.0
    ensures MatchAt(p, text, q).None?
    decreases |text| - from
  {
    var here := MatchAt(p, text, from);
    FirstMatchStep(p, text, from);
    if q == from {
      assert here.None?;
    } else {
      assert here.None? && from < |text|;
      FirstMatchSkips(p, text, from + 1, q);
    }
  }

  /** One step of the scan: a match here is reported here, and otherwise the
      scan goes on from the next position. */
  lemma FirstMatchStep(p: Pattern, text: string, from: nat)
    requires from <= |text|
    ensures MatchAt(p, text, from).Some? ==> FirstMatch(p, text, from) == Some((from, MatchAt(p, text, from).value))
    ensures MatchAt(p, text, from).None? && from < |text| ==> FirstMatch(p, text, from) == FirstMatch(p, text, from + 1)
    ensures MatchAt(p, text, from).None? && from == |text| ==> FirstMatch(p, text, from).None?
  {
  }

  /** The match `FirstMatch` reports is the leftmost one: no earlier position
      matches, and when it reports none, no position from `from` on matches. */
  lemma FirstMatchLeftmost(p: Pattern, text: string, from: nat)
    requires from <= |text|
    ensures var r := FirstMatch(p, text, from);
            && (r.Some? ==> forall q :: from <= q < r.value.0 ==> MatchAt(p, text, q).None?)
            && (r.None? ==> forall q :: from <= q <= |text| ==> MatchAt(p, text, q).None?)
  {
    forall q | from <= q <= |text| && (FirstMatch(p, text, from).None? || q < FirstMatch(p, text, from).value.0)
      ensures MatchAt(p, text, q).None?
    {
      FirstMatchSkips(p, text, from, q);
    }
  }

  /** Go's `re.FindStringSubmatch(text)[1]`, or None when `len(matches) <= 1`. */
  function Submatch(p: Pattern, text: string): (r: Option<string>)
    ensures r.Some? ==> p.UnitPattern? ==> r.value != [] && AllNumberChars(r.value)
  {
    match FirstMatch(p, text, 0)
    case None => None
    case Some((_, c)) => Some(c)
  }

  /** Once the leftmost matching position is known, the capture is the one found there. */
  lemma SubmatchAtLeftmost(p: Pattern, text: string, i: nat)
    requires i <= |text| && MatchAt(p, text, i).Some?
    requires forall q :: 0 <= q < i ==> MatchAt(p, text, q).None?
    ensures Submatch(p, text) == MatchAt(p, text, i)
  {
    FirstMatchLeftmost(p, text, 0);
  }

  /** No position matches, so there is no capture. */
  lemma SubmatchNone(p: Pattern, text: string)
    ensures Submatch(p, text).None? <==> forall q :: 0 <= q <= |text| ==> MatchAt(p, text, q).None?
  {
    FirstMatchLeftmost(p, text, 0);
  }

  // ---------------------------------------------------------------------------
  // The regular-expression reading of the patterns, stated declaratively.
  // ---------------------------------------------------------------------------

  /** A way the unit pattern can match at `i`: the marker at `i`, white space up
      to `ds`, a non-empty number run [ds, de), white space up to `ue`, the unit
      at `ue`. */
  predicate UnitSplit(marker: string, unit: string, text: string, i: nat, ds: nat, de: nat, ue: nat) {
    && i + |marker| <= ds < de <= ue <= |text|
    && MatchesFoldAt(text, i, marker)
    && SpacesBetween(text, i + |marker|, ds)
    && NumberBetween(text, ds, de)
    && SpacesBetween(text, de, ue)
    && MatchesFoldAt(text, ue, unit)
  }

  /** Every way the unit pattern can match at `i` captures what `UnitMatchAt`
      captures: the regular expression has one reading here, not several. */
  lemma UnitSplitDeterminesMatch(marker: string, unit: string, text: string, i: nat, ds: nat, de: nat, ue: nat)
    requires WellFormed(UnitPattern(marker, unit))
    requires UnitSplit(marker, unit, text, i, ds, de, ue)
    ensures UnitMatchAt(marker, unit, text, i) == Some(text[ds..de])
  {
    var ds' := SkipSpaces(text, i + |marker|);
    assert !IsRegexSpace(text[ds]) by { assert IsNumberChar(text[ds]); }
    assert ds' == ds;
    var de' := SkipNumber(text, ds);
    assert FoldsTo(text[ue], unit[0]);
    assert !IsNumberChar(text[de]) by {
      if de < ue { assert IsRegexSpace(text[de]); }
    }
    assert de' == de;
    assert !IsRegexSpace(text[ue]);
    assert SkipSpaces(text, de) == ue;
  }

  /** Conversely every capture `UnitMatchAt` reports is a genuine match of the pattern. */
  lemma UnitMatchIsSplit(marker: string, unit: string, text: string, i: nat)
    requires i <= |text| && UnitMatchAt(marker, unit, text, i).Some?
    ensures exists ds: nat, de: nat, ue: nat :: UnitSplit(marker, unit, text, i, ds, de, ue)
                                  && UnitMatchAt(marker, unit, text, i) == Some(text[ds..de])
  {
    var ds := SkipSpaces(text, i + |marker|);
    var de := SkipNumber(text, ds);
    var ue := SkipSpaces(text, de);
    assert UnitSplit(marker, unit, text, i, ds, de, ue);
  }

  /** Any unit that starts with `kW` is accepted by a pattern that asks only for
      `kW`: a match against the longer unit is a match against its prefix. */
  lemma UnitPrefixAccepts(marker: string, unit: string, longer: string, text: string, i: nat, ds: nat, de: nat, ue: nat)
    requires WellFormed(UnitPattern(marker, unit))
    requires unit <= longer
    requires UnitSplit(marker, longer, text, i, ds, de, ue)
    ensures UnitMatchAt(marker, unit, text, i) == Some(text[ds..de])
  {
    assert UnitSplit(marker, unit, text, i, ds, de, ue);
    UnitSplitDeterminesMatch(marker, unit, text, i, ds, de, ue);
  }

  /** A way the line pattern can match at `i`: the marker at `i`, white space up
      to `s`, then a non-empty stretch [s, e) free of newlines. */
  predicate LineSplit(marker: string, text: string, i: nat, s: nat, e: nat) {
    && i + |marker| <= s < e <= |text|
    && MatchesFoldAt(text, i, marker)
    && SpacesBetween(text, i + |marker|, s)
    && NoNewlineBetween(text, s, e)
  }

  /** The line pattern matches at `i` whenever some split exists, and the capture
      it reports is itself a split that RE2's priorities prefer to every other:
      greedy `\s*` wants the latest start, then greedy `[^\n]+` the latest end. */
  lemma LineMatchIsPreferredSplit(marker: string, text: string, i: nat, s: nat, e: nat)
    requires LineSplit(marker, text, i, s, e)
    ensures LineStartAt(marker, text, i).Some?
    ensures var s' := LineStartAt(marker, text, i).value;
            && LineSplit(marker, text, i, s', LineEnd(text, s'))
            && (s < s' || (s == s' && e <= LineEnd(text, s')))
  {
    var ws := i + |marker|;
    var j := SkipSpaces(text, ws);
    if j == |text| {
      assert text[s] != '\n';
    }
    var s' := LineStartAt(marker, text, i).value;
    assert SpacesBetween(text, ws, s');
    var e' := LineEnd(text, s');
  }
}

=== FILE: query.dfy ===
/** The query command: resolve (make, model, year) to a battery specification
    through three tiers. An exact lookup in the store wins; otherwise the
    canonical query text is embedded and the single nearest stored record is
    accepted when its confidence reaches the threshold; otherwise the LLM is
    asked once and its answer, or its error, is final. */
module QueryCommand {
  import opened Wrappers
  import opened Numbers
  import opened Models
  import opened Config
  import opened Store
  import opened Embedding
  import opened Llm
  import opened Effects

  /** The calls a query can make, in the order it makes them. */
  const QueryPlan: seq<Kind> := [LoadConfigKind, ConnectKind, ExactKind, EmbedKind, SearchKind, GenerateKind]

  /** The similarity search is asked for one neighbour. */
  const SearchLimit: int := 1

  /** The collaborators one query meets, beyond the store: the embedding service,
      the LLM providers' replies and the store's distance function. */
  datatype Services = Services(dist: Distance, embed: EmbedService, replies: LlmReplies)

  /** The last tier: the configured LLM provider, asked once. */
  function AskLlm(make: string, model: string, year: int, cfg: Config, replies: LlmReplies): (r: Run<EVSpec>)
    ensures r.trace == [Generate(LlmBackendFor(cfg.llmProvider), make, model, year)]
    ensures FollowsPlan(r.trace, [GenerateKind]) && StopsAtFailure(r)
    ensures r.outcome.Err? <==> QueryEVSpecs(cfg.llmProvider, make, model, year, replies).Err?
    ensures r.outcome.Err? ==> r.outcome.error == LlmFailed(QueryEVSpecs(cfg.llmProvider, make, model, year, replies).error)
    ensures r.outcome.Ok? ==> && r.outcome.value.make == make && r.outcome.value.model == model
                              && r.outcome.value.year == year && r.outcome.value.source == SourceLlm
  {
    var answer := QueryEVSpecs(cfg.llmProvider, make, model, year, replies);
    Single(Generate(LlmBackendFor(cfg.llmProvider), make, model, year),
           if answer.Err? then Err(LlmFailed(answer.error)) else Ok(answer.value))
  }

  /** A search answer is good enough when it has a first record whose confidence
      reaches the threshold; exactly 0.8 is accepted. */
  predicate Confident(found: seq<EVSpec>) {
    |found| > 0 && found[0].confidence >= ConfidenceThreshold
  }

  /** The tiers after the query has been embedded: search for the nearest
      record and keep it if it is confident enough, else fall back to the LLM. */
  function AfterEmbedding(make: string, model: string, year: int, cfg: Config, db: Database,
                          svc: Services, query: Vector): (r: Run<EVSpec>)
    ensures FollowsPlan(r.trace, [SearchKind, GenerateKind]) && r.trace != [] && StopsAtFailure(r)
    ensures r.trace[0] == Search(query, SearchLimit)
  {
    var call := Search(query, SearchLimit);
    var found := SimilaritySearch(db, query, SearchLimit, svc.dist);
    if found.Err? then Single(call, Err(SearchFailed(found.error)))
    else if Confident(found.value) then Single(call, Ok(found.value[0]))
    else
      var r := Before(call, AskLlm(make, model, year, cfg, svc.replies), [GenerateKind]);
      assert [SearchKind] + [GenerateKind] == [SearchKind, GenerateKind];
      r
  }

  /** The tiers after an exact miss: embed the query text, then search. */
  function AfterMiss(make: string, model: string, year: int, cfg: Config, db: Database, svc: Services): (r: Run<EVSpec>)
    ensures FollowsPlan(r.trace, [EmbedKind, SearchKind, GenerateKind]) && r.trace != [] && StopsAtFailure(r)
    ensures r.trace[0] == Embed(EmbedBackendFor(cfg.embeddingProvider), BuildQueryText(make, model, year))
  {
    var text := BuildQueryText(make, model, year);
    var call := Embed(EmbedBackendFor(cfg.embeddingProvider), text);
    var query := GetEmbedding(cfg.embeddingProvider, text, svc.embed);
    if query.Err? then Single(call, Err(EmbeddingFailed(query.error)))
    else
      var r := Before(call, AfterEmbedding(make, model, year, cfg, db, svc, query.value), [SearchKind, GenerateKind]);
      assert [EmbedKind] + [SearchKind, GenerateKind] == [EmbedKind, SearchKind, GenerateKind];
      r
  }

  /** The tiers on a live connection: the exact lookup, then the rest on a miss. */
  function Tiers(make: string, model: string, year: int, cfg: Config, db: Database, svc: Services): (r: Run<EVSpec>)
    ensures FollowsPlan(r.trace, [ExactKind, EmbedKind, SearchKind, GenerateKind]) && r.trace != [] && StopsAtFailure(r)
    ensures r.trace[0] == ExactLookup(make, model, year)
  {
    var call := ExactLookup(make, model, year);
    assert KindOf(call) == ExactKind;
    var exact := GetByMakeModelYear(db, make, model, year);
    if exact.Err? then Single(call, Err(LookupFailed(exact.error)))
    else if exact.value.Some? then Single(call, Ok(exact.value.value))
    else
      var r := Before(call, AfterMiss(make, model, year, cfg, db, svc), [EmbedKind, SearchKind, GenerateKind]);
      assert [ExactKind] + [EmbedKind, SearchKind, GenerateKind] == [ExactKind, EmbedKind, SearchKind, GenerateKind];
      r
  }

  /** Everything after the configuration: connect, then the tiers. */
  function ConnectAndResolve(make: string, model: string, year: int, cfg: Config, db: Database, svc: Services): (r: Run<EVSpec>)
    ensures FollowsPlan(r.trace, [ConnectKind, ExactKind, EmbedKind, SearchKind, GenerateKind])
    ensures r.trace != [] && StopsAtFailure(r)
    ensures !db.reachable ==> r == Run(Err(DatabaseUnreachable), [ConnectDatabase])
  {
    if Connect(db).Err? then Single(ConnectDatabase, Err(DatabaseUnreachable))
    else
      var r := Before(ConnectDatabase, Tiers(make, model, year, cfg, db, svc), [ExactKind, EmbedKind, SearchKind, GenerateKind]);
      assert [ConnectKind] + [ExactKind, EmbedKind, SearchKind, GenerateKind]
          == [ConnectKind, ExactKind, EmbedKind, SearchKind, GenerateKind];
      r
  }

  /** `runQuery` up to the output: parse the year, load the configuration,
      connect, then resolve through the tiers. `loaded` is what loading the
      configuration answers; `RunQuery` below supplies `NewConfig(env, [])`. */
  function Resolve(make: string, model: string, yearText: string, loaded: Loaded, db: Database,
                   svc: Services): (r: Run<EVSpec>)
    ensures FollowsPlan(r.trace, QueryPlan)
    ensures StopsAtFailure(r)
    ensures r.trace == [] <==> Atoi(yearText).None?
    ensures Atoi(yearText).None? ==> r.outcome == Err(InvalidYear(yearText))
  {
    match Atoi(yearText)
    case None => Run(Err(InvalidYear(yearText)), [])
    case Some(year) =>
      match loaded
      case Err(e) => Single(LoadConfig, Err(ConfigFailed(e)))
      case Ok(cfg) =>
        var r := Before(LoadConfig, ConnectAndResolve(make, model, year, cfg, db, svc),
                        [ConnectKind, ExactKind, EmbedKind, SearchKind, GenerateKind]);
        assert [LoadConfigKind] + [ConnectKind, ExactKind, EmbedKind, SearchKind, GenerateKind] == QueryPlan;
        r
  }

  /** The query as the command runs it: the configuration is loaded from the
      environment with no options. */
  function RunQuery(make: string, model: string, yearText: string, env: Environment, db: Database,
                    svc: Services): (r: Run<EVSpec>)
    ensures FollowsPlan(r.trace, QueryPlan) && StopsAtFailure(r)
    ensures Atoi(yearText).Some? && NewConfig(env, []).Err? ==>
              r.outcome == Err(ConfigFailed(NewConfig(env, []).error)) && r.trace == [LoadConfig]
    ensures Atoi(yearText).Some? && NewConfig(env, []).Ok? ==> r.trace != [] && r.trace[0] == LoadConfig
  {
    Resolve(make, model, yearText, NewConfig(env, []), db, svc)
  }

  // ---------------------------------------------------------------------------
  // What a query does, tier by tier.
  // ---------------------------------------------------------------------------

  /** The year parses, the configuration loads and the database answers: the
      point from which the tiers run. */
  predicate Connected(yearText: string, loaded: Loaded, db: Database, year: int) {
    Atoi(yearText) == Some(year) && loaded.Ok? && db.reachable
  }

  /** Without a database URL in the environment the query stops right after
      loading the configuration: the database, the embedding service and the
      LLM are never contacted. */
  lemma MissingDatabaseStopsQuery(make: string, model: string, yearText: string, env: Environment, db: Database,
                                  svc: Services)
    requires Atoi(yearText).Some? && Getenv(env, NeonDatabaseUrl) == ""
    ensures var r := RunQuery(make, model, yearText, env, db, svc);
            r.outcome == Err(ConfigFailed(MissingDatabaseURL)) && r.trace == [LoadConfig]
  {
  }

  /** Once connected, a query is the configuration load and the connection
      followed by the tiers. */
  lemma ResolveConnected(make: string, model: string, yearText: string, loaded: Loaded, db: Database,
                         svc: Services, year: int)
    requires Connected(yearText, loaded, db, year)
    ensures var r := Resolve(make, model, yearText, loaded, db, svc);
            var t := Tiers(make, model, year, loaded.value, db, svc);
            r.outcome == t.outcome && r.trace == [LoadConfig, ConnectDatabase] + t.trace
  {
  }

  /** Loading the configuration is a call: a configuration error ends the query
      after it and before the database is contacted. */
  lemma ConfigErrorStopsQuery(make: string, model: string, yearText: string, loaded: Loaded, db: Database,
                              svc: Services, year: int)
    requires Atoi(yearText) == Some(year) && loaded.Err?
    ensures var r := Resolve(make, model, yearText, loaded, db, svc);
            r.outcome == Err(ConfigFailed(loaded.error)) && r.trace == [LoadConfig]
  {
  }

  /** An unreachable database ends the query after the connection attempt: no
      lookup, embedding, search or LLM call follows. */
  lemma UnreachableStopsQuery(make: string, model: string, yearText: string, loaded: Loaded, db: Database,
                              svc: Services, year: int)
    requires Atoi(yearText) == Some(year) && loaded.Ok? && !db.reachable
    ensures var r := Resolve(make, model, yearText, loaded, db, svc);
            r.outcome == Err(DatabaseUnreachable) && r.trace == [LoadConfig, ConnectDatabase]
  {
  }

  /** An exact hit is returned as the store reported it, with confidence 1.0,
      and neither the embedding service nor the LLM is called. */
  lemma ExactHitShortCircuits(make: string, model: string, yearText: string, loaded: Loaded, db: Database,
                              svc: Services, year: int, spec: EVSpec)
    requires Connected(yearText, loaded, db, year)
    requires GetByMakeModelYear(db, make, model, year) == Ok(Some(spec))
    ensures var r := Resolve(make, model, yearText, loaded, db, svc);
            && r.outcome == Ok(spec) && r.outcome.value.confidence == 1.0
            && r.trace == [LoadConfig, ConnectDatabase, ExactLookup(make, model, year)]
            && CountKind(r.trace, EmbedKind) == 0 && CountKind(r.trace, GenerateKind) == 0
  {
    ResolveConnected(make, model, yearText, loaded, db, svc, year);
  }

  /** A failed exact lookup ends the query with that error. */
  lemma LookupErrorStopsQuery(make: string, model: string, yearText: string, loaded: Loaded, db: Database,
                              svc: Services, year: int)
    requires Connected(yearText, loaded, db, year)
    requires GetByMakeModelYear(db, make, model, year).Err?
    ensures var r := Resolve(make, model, yearText, loaded, db, svc);
            && r.outcome == Err(LookupFailed(GetByMakeModelYear(db, make, model, year).error))
            && r.trace == [LoadConfig, ConnectDatabase, ExactLookup(make, model, year)]
  {
    ResolveConnected(make, model, yearText, loaded, db, svc, year);
  }

  /** On a miss, the tiers are the exact lookup followed by the later tiers. */
  lemma TiersOnMiss(make: string, model: string, year: int, cfg: Config, db: Database, svc: Services)
    requires GetByMakeModelYear(db, make, model, year) == Ok(None)
    ensures var t := Tiers(make, model, year, cfg, db, svc);
            var m := AfterMiss(make, model, year, cfg, db, svc);
            t.outcome == m.outcome && t.trace == [ExactLookup(make, model, year)] + m.trace
  {
  }

  /** With the query embedded, the later tiers are the embedding call followed
      by the search stage; a failed embedding is the last call. */
  lemma AfterMissOnEmbedding(make: string, model: string, year: int, cfg: Config, db: Database, svc: Services)
    ensures var m := AfterMiss(make, model, year, cfg, db, svc);
            var text := BuildQueryText(make, model, year);
            var query := GetEmbedding(cfg.embeddingProvider, text, svc.embed);
            && (query.Err? ==> m.outcome == Err(EmbeddingFailed(query.error)) && |m.trace| == 1)
            && (query.Ok? ==>
                  var e := AfterEmbedding(make, model, year, cfg, db, svc, query.value);
                  m.outcome == e.outcome && m.trace == [Embed(EmbedBackendFor(cfg.embeddingProvider), text)] + e.trace)
  {
  }

  /** On an exact miss the query text embedded is exactly `BuildQueryText`,
      sent to the configured embedding provider; if that fails the query ends
      there, with neither a search nor the LLM. */
  lemma MissEmbedsQueryText(make: string, model: string, yearText: string, loaded: Loaded, db: Database,
                            svc: Services, year: int)
    requires Connected(yearText, loaded, db, year)
    requires GetByMakeModelYear(db, make, model, year) == Ok(None)
    ensures var r := Resolve(make, model, yearText, loaded, db, svc);
            var cfg := loaded.value;
            var text := BuildQueryText(make, model, year);
            && |r.trace| >= 4
            && r.trace[3] == Embed(EmbedBackendFor(cfg.embeddingProvider), text)
            && (GetEmbedding(cfg.embeddingProvider, text, svc.embed).Err? ==>
                  && r.outcome == Err(EmbeddingFailed(GetEmbedding(cfg.embeddingProvider, text, svc.embed).error))
                  && |r.trace| == 4)
  {
    var cfg := loaded.value;
    ResolveConnected(make, model, yearText, loaded, db, svc, year);
    TiersOnMiss(make, model, year, cfg, db, svc);
    AfterMissOnEmbedding(make, model, year, cfg, db, svc);
    var m := AfterMiss(make, model, year, cfg, db, svc);
    var r := Resolve(make, model, yearText, loaded, db, svc);
    assert r.trace == [LoadConfig, ConnectDatabase, ExactLookup(make, model, year)] + m.trace;
    assert r.trace[3] == m.trace[0];
  }

  /** Once the query text is embedded, a query is its first four calls followed
      by the search stage. */
  lemma ResolveAfterEmbedding(make: string, model: string, yearText: string, loaded: Loaded, db: Database,
                              svc: Services, year: int, query: Vector)
    requires Connected(yearText, loaded, db, year)
    requires GetByMakeModelYear(db, make, model, year) == Ok(None)
    requires GetEmbedding(loaded.value.embeddingProvider, BuildQueryText(make, model, year), svc.embed) == Ok(query)
    ensures var r := Resolve(make, model, yearText, loaded, db, svc);
            var cfg := loaded.value;
            var rest := AfterEmbedding(make, model, year, cfg, db, svc, query);
            && r.outcome == rest.outcome
            && r.trace == [LoadConfig, ConnectDatabase, ExactLookup(make, model, year),
                           Embed(EmbedBackendFor(cfg.embeddingProvider), BuildQueryText(make, model, year))] + rest.trace
  {
    var cfg := loaded.value;
    ResolveConnected(make, model, yearText, loaded, db, svc, year);
    TiersOnMiss(make, model, year, cfg, db, svc);
    AfterMissOnEmbedding(make, model, year, cfg, db, svc);
    var m := AfterMiss(make, model, year, cfg, db, svc);
    var rest := AfterEmbedding(make, model, year, cfg, db, svc, query);
    var e := Embed(EmbedBackendFor(cfg.embeddingProvider), BuildQueryText(make, model, year));
    assert [LoadConfig, ConnectDatabase] + ([ExactLookup(make, model, year)] + ([e] + rest.trace))
        == [LoadConfig, ConnectDatabase, ExactLookup(make, model, year), e] + rest.trace;
  }

  /** With the query embedded, one neighbour is asked for; a failed search ends
      the query with that error instead of falling through to the LLM. */
  lemma SearchAsksForOne(make: string, model: string, yearText: string, loaded: Loaded, db: Database,
                         svc: Services, year: int, query: Vector)
    requires Connected(yearText, loaded, db, year)
    requires GetByMakeModelYear(db, make, model, year) == Ok(None)
    requires GetEmbedding(loaded.value.embeddingProvider, BuildQueryText(make, model, year), svc.embed) == Ok(query)
    ensures var r := Resolve(make, model, yearText, loaded, db, svc);
            && |r.trace| >= 5 && r.trace[4] == Search(query, 1)
            && (SimilaritySearch(db, query, 1, svc.dist).Err? ==>
                  && r.outcome == Err(SearchFailed(SimilaritySearch(db, query, 1, svc.dist).error))
                  && |r.trace| == 5)
  {
    ResolveAfterEmbedding(make, model, yearText, loaded, db, svc, year, query);
  }

  /** After the search: a confident first record ends the query; anything else
      hands it to the LLM. */
  lemma AfterEmbeddingDecides(make: string, model: string, year: int, cfg: Config, db: Database,
                              svc: Services, query: Vector, found: seq<EVSpec>)
    requires SimilaritySearch(db, query, SearchLimit, svc.dist) == Ok(found)
    ensures var r := AfterEmbedding(make, model, year, cfg, db, svc, query);
            && (Confident(found) ==> r.trace == [Search(query, SearchLimit)] && r.outcome == Ok(found[0]))
            && (!Confident(found) ==>
                  && r.trace == [Search(query, SearchLimit), Generate(LlmBackendFor(cfg.llmProvider), make, model, year)]
                  && r.outcome == AskLlm(make, model, year, cfg, svc.replies).outcome)
  {
  }

  /** In a query the LLM can only be the sixth call, so it is called exactly when
      the trace has six calls. */
  lemma GenerateOnlyLast(trace: seq<Call>)
    requires FollowsPlan(trace, QueryPlan)
    ensures CountKind(trace, GenerateKind) == 0 <==> |trace| < 6
  {
    if |trace| == 6 {
      assert KindOf(trace[5]) == GenerateKind;
    } else {
      forall i | 0 <= i < |trace|
        ensures KindOf(trace[i]) != GenerateKind
      {
        assert KindOf(trace[i]) == QueryPlan[i];
      }
    }
  }

  /** The nearest record is the answer exactly when the search found one whose
      confidence is at least 0.8; otherwise the LLM is called. */
  lemma ThresholdDecides(make: string, model: string, yearText: string, loaded: Loaded, db: Database,
                         svc: Services, year: int, query: Vector, found: seq<EVSpec>)
    requires Connected(yearText, loaded, db, year)
    requires GetByMakeModelYear(db, make, model, year) == Ok(None)
    requires GetEmbedding(loaded.value.embeddingProvider, BuildQueryText(make, model, year), svc.embed) == Ok(query)
    requires SimilaritySearch(db, query, 1, svc.dist) == Ok(found)
    ensures var r := Resolve(make, model, yearText, loaded, db, svc);
            && (CountKind(r.trace, GenerateKind) == 0 <==> |found| > 0 && found[0].confidence >= 0.8)
            && (|found| > 0 && found[0].confidence >= 0.8 ==> r.outcome == Ok(found[0]))
  {
    var r := Resolve(make, model, yearText, loaded, db, svc);
    var rest := AfterEmbedding(make, model, year, loaded.value, db, svc, query);
    ResolveAfterEmbedding(make, model, yearText, loaded, db, svc, year, query);
    AfterEmbeddingDecides(make, model, year, loaded.value, db, svc, query, found);
    assert |r.trace| == 4 + |rest.trace|;
    GenerateOnlyLast(r.trace);
  }

  /** Below the threshold the LLM is the last call, and its record or its error
      is the outcome of the query. */
  lemma LlmAnswerIsFinal(make: string, model: string, yearText: string, loaded: Loaded, db: Database,
                         svc: Services, year: int, query: Vector, found: seq<EVSpec>)
    requires Connected(yearText, loaded, db, year)
    requires GetByMakeModelYear(db, make, model, year) == Ok(None)
    requires GetEmbedding(loaded.value.embeddingProvider, BuildQueryText(make, model, year), svc.embed) == Ok(query)
    requires SimilaritySearch(db, query, 1, svc.dist) == Ok(found)
    requires !(|found| > 0 && found[0].confidence >= 0.8)
    ensures var r := Resolve(make, model, yearText, loaded, db, svc);
            var cfg := loaded.value;
            var answer := QueryEVSpecs(cfg.llmProvider, make, model, year, svc.replies);
            && r.trace[|r.trace| - 1] == Generate(LlmBackendFor(cfg.llmProvider), make, model, year)
            && (answer.Ok? ==> r.outcome == Ok(answer.value))
            && (answer.Err? ==> r.outcome == Err(LlmFailed(answer.error)))
  {
    var r := Resolve(make, model, yearText, loaded, db, svc);
    var rest := AfterEmbedding(make, model, year, loaded.value, db, svc, query);
    ResolveAfterEmbedding(make, model, yearText, loaded, db, svc, year, query);
    AfterEmbeddingDecides(make, model, year, loaded.value, db, svc, query, found);
    assert r.trace[|r.trace| - 1] == rest.trace[1];
  }

  /** A query only reads the store: not even a generated answer is written back. */
  lemma QueryNeverWrites(make: string, model: string, yearText: string, loaded: Loaded, db: Database,
                         svc: Services)
    ensures CountKind(Resolve(make, model, yearText, loaded, db, svc).trace, InsertKind) == 0
  {
    PlanExcludes(Resolve(make, model, yearText, loaded, db, svc).trace, QueryPlan, InsertKind);
  }

  /** No kind of call appears twice in the query's plan. */
  lemma QueryPlanDistinct()
    ensures forall i, j :: 0 <= i < j < |QueryPlan| ==> QueryPlan[i] != QueryPlan[j]
  {
  }

  /** Whatever the collaborators answer, the LLM is called at most once and the
      embedding service at most once. */
  lemma CollaboratorsCalledOnce(make: string, model: string, yearText: string, loaded: Loaded, db: Database,
                                svc: Services)
    ensures CountKind(Resolve(make, model, yearText, loaded, db, svc).trace, GenerateKind) <= 1
    ensures CountKind(Resolve(make, model, yearText, loaded, db, svc).trace, EmbedKind) <= 1
  {
    var r := Resolve(make, model, yearText, loaded, db, svc);
    QueryPlanDistinct();
    PlanCallsOnce(r.trace, QueryPlan, GenerateKind);
    PlanCallsOnce(r.trace, QueryPlan, EmbedKind);
  }
}

=== FILE: store.dfy ===
/** The knowledge store behind the database client: the `ev_specs` table as an
    abstract state, and the statements the client runs against it. Which
    statements the server rejects (a lost connection, a failed query) is part of
    the state, so every transport failure is one explicit branch. */
module Store {
  import opened Wrappers
  import opened Text
  import opened Models

  /** One row of `ev_specs`; the embedding column may be NULL. */
  datatype Row = Row(make: string, model: string, year: int,
                     capacity: real, power: real, chemistry: string,
                     embedding: Option<Vector>)

  /** The upsert's conflict target: the literal columns, not their lower-case forms. */
  datatype Key = Key(make: string, model: string, year: int)

  function KeyOf(row: Row): Key {
    Key(row.make, row.model, row.year)
  }

  /** The table's rows in the order the server scans them; for a query without
      ORDER BY, that order decides which of several matching rows comes first. */
  type Table = seq<Row>

  /** The unique index on (make, model, year). */
  predicate UniqueKeys(t: Table) {
    forall i, j :: 0 <= i < j < |t| ==> KeyOf(t[i]) != KeyOf(t[j])
  }

  predicate HasKey(t: Table, k: Key) {
    exists i :: 0 <= i < |t| && KeyOf(t[i]) == k
  }

  datatype Statement = SelectExact | SelectNearest | UpsertSpec

  /** The database as one invocation sees it: its table, whether the pool can be
      created and pinged, and which statements fail when sent. */
  datatype Database = Database(table: Table, reachable: bool, failing: set<Statement>)

  datatype DbError =
    | ConnectFailed
    | QueryFailed(statement: Statement)
    | NegativeLimit      // PostgreSQL refuses a negative LIMIT

  /** `db.New`: creating the pool and pinging it. */
  function Connect(db: Database): (r: Result<(), DbError>)
    ensures r.Ok? <==> db.reachable
  {
    if db.reachable then Ok(()) else Err(ConnectFailed)
  }

  // ---------------------------------------------------------------------------
  // Exact lookup.
  // ---------------------------------------------------------------------------

  /** `LOWER(make) = LOWER($1) AND LOWER(model) = LOWER($2) AND year = $3` */
  predicate MatchesQuery(row: Row, make: string, model: string, year: int) {
    EqualFold(row.make, make) && EqualFold(row.model, model) && row.year == year
  }

  /** Index of the first row, at or after `from`, the exact lookup selects. */
  function FirstMatching(t: Table, make: string, model: string, year: int, from: nat): (r: Option<nat>)
    requires from <= |t|
    ensures r.Some? ==> from <= r.value < |t|
    decreases |t| - from
  {
    if from == |t| then None
    else if MatchesQuery(t[from], make, model, year) then Some(from)
    else FirstMatching(t, make, model, year, from + 1)
  }

  /** The index found matches and no earlier row from `from` on does; when none
      is found, no row from `from` on matches. */
  lemma {:induction false} FirstMatchingSpec(t: Table, make: string, model: string, year: int, from: nat)
    requires from <= |t|
    ensures var r := FirstMatching(t, make, model, year, from);
            && (r.Some? ==> MatchesQuery(t[r.value], make, model, year))
            && (r.Some? ==> forall k :: from <= k < r.value ==> !MatchesQuery(t[k], make, model, year))
            && (r.None? ==> forall k :: from <= k < |t| ==> !MatchesQuery(t[k], make, model, year))
    decreases |t| - from
  {
    if from < |t| && !MatchesQuery(t[from], make, model, year) {
      FirstMatchingSpec(t, make, model, year, from + 1);
    }
  }

  /** A row as an exact hit reports it. */
  function ExactSpec(row: Row): EVSpec {
    EVSpec(row.make, row.model, row.year, row.capacity, row.power, row.chemistry, 1.0, SourceDatabase)
  }

  /** `GetByMakeModelYear`: the first row whose make and model equal the query's
      once lower-cased and whose year is equal; no such row is "absent", not an
      error. `QueryRow` keeps the first row the server returns. */
  function GetByMakeModelYear(db: Database, make: string, model: string, year: int): (r: Result<Option<EVSpec>, DbError>)
    ensures r.Err? <==> SelectExact in db.failing
    ensures r.Err? ==> r.error == QueryFailed(SelectExact)
  {
    if SelectExact in db.failing then Err(QueryFailed(SelectExact))
    else
      match FirstMatching(db.table, make, model, year, 0)
      case None => Ok(None)
      case Some(k) => Ok(Some(ExactSpec(db.table[k])))
  }

  /** What a successful exact lookup answers: nothing exactly when no row
      matches, and otherwise a matching row, reported with full confidence as
      coming from the database. */
  lemma ExactLookupAnswer(db: Database, make: string, model: string, year: int)
    ensures var r := GetByMakeModelYear(db, make, model, year);
            && (r == Ok(None) <==> SelectExact !in db.failing
                                   && forall k :: 0 <= k < |db.table| ==> !MatchesQuery(db.table[k], make, model, year))
            && (r.Ok? && r.value.Some? ==>
                  && (exists k :: 0 <= k < |db.table| && MatchesQuery(db.table[k], make, model, year)
                                  && r.value.value == ExactSpec(db.table[k]))
                  && r.value.value.confidence == 1.0 && r.value.value.source == SourceDatabase
                  && EqualFold(r.value.value.make, make) && EqualFold(r.value.value.model, model)
                  && r.value.value.year == year)
  {
    FirstMatchingSpec(db.table, make, model, year, 0);
  }

  /** `LOWER()` ignores the case of the query: "Tesla"/"Model 3" and
      "tesla"/"model 3" select the same row. */
  lemma LookupIgnoresCase(db: Database, make: string, model: string, make': string, model': string, year: int)
    requires EqualFold(make, make') && EqualFold(model, model')
    ensures GetByMakeModelYear(db, make, model, year) == GetByMakeModelYear(db, make', model', year)
  {
    forall k | 0 <= k < |db.table|
      ensures MatchesQuery(db.table[k], make, model, year) <==> MatchesQuery(db.table[k], make', model', year)
    {
    }
    FirstMatchingSame(db.table, make, model, make', model', year, 0);
  }

  lemma {:induction false} FirstMatchingSame(t: Table, make: string, model: string, make': string, model': string, year: int, from: nat)
    requires from <= |t|
    requires forall k :: 0 <= k < |t| ==> (MatchesQuery(t[k], make, model, year) <==> MatchesQuery(t[k], make', model', year))
    ensures FirstMatching(t, make, model, year, from) == FirstMatching(t, make', model', year, from)
    decreases |t| - from
  {
    if from < |t| {
      FirstMatchingSame(t, make, model, make', model', year, from + 1);
    }
  }

  // ---------------------------------------------------------------------------
  // Upsert.
  // ---------------------------------------------------------------------------

  /** The row `InsertEVSpec` writes for a record and its embedding. */
  function RowOf(spec: EVSpec, embedding: Vector): Row {
    Row(spec.make, spec.model, spec.year, spec.capacity, spec.power, spec.chemistry, Some(embedding))
  }

  /** The rows whose key differs from `k`, in table order. */
  function Without(t: Table, k: Key): (r: Table)
    ensures forall x :: x in r <==> x in t && KeyOf(x) != k
  {
    if t == [] then []
    else if KeyOf(t[0]) == k then Without(t[1..], k)
    else [t[0]] + Without(t[1..], k)
  }

  /** `INSERT ... ON CONFLICT (make, model, year) DO UPDATE`: a row with the same
      literal key has its capacity, power, chemistry and embedding replaced in
      place; otherwise the row is added. */
  function UpsertRow(t: Table, row: Row): (r: Table)
    requires UniqueKeys(t)
    ensures UniqueKeys(r)
    ensures row in r
    ensures forall x :: x in r ==> x == row || x in t
    ensures forall x :: x in r && KeyOf(x) == KeyOf(row) ==> x == row
  {
    if t == [] then [row]
    else if KeyOf(t[0]) == KeyOf(row) then
      var r := [row] + t[1..];
      assert r[1..] == t[1..];
      r
    else
      var rest := UpsertRow(t[1..], row);
      var r := [t[0]] + rest;
      assert r[0] == t[0] && r[1..] == rest;
      assert forall x :: x in rest ==> KeyOf(x) != KeyOf(t[0]);
      r
  }

  /** The upsert leaves every row with another key where it was, and adds a row
      exactly when the key was not yet present. */
  lemma {:induction false} UpsertKeepsOthers(t: Table, row: Row)
    requires UniqueKeys(t)
    ensures Without(UpsertRow(t, row), KeyOf(row)) == Without(t, KeyOf(row))
    ensures |UpsertRow(t, row)| == if HasKey(t, KeyOf(row)) then |t| else |t| + 1
  {
    if t != [] {
      var r := UpsertRow(t, row);
      if KeyOf(t[0]) == KeyOf(row) {
        assert r[1..] == t[1..];
        assert HasKey(t, KeyOf(row));
      } else {
        UpsertKeepsOthers(t[1..], row);
        assert r[1..] == UpsertRow(t[1..], row);
        assert HasKey(t, KeyOf(row)) <==> HasKey(t[1..], KeyOf(row)) by {
          if HasKey(t, KeyOf(row)) {
            var i :| 0 <= i < |t| && KeyOf(t[i]) == KeyOf(row);
            assert KeyOf(t[1..][i - 1]) == KeyOf(row);
          }
        }
      }
    }
  }

  /** Writing the same key twice leaves one row, holding the later values. */
  lemma {:induction false} UpsertTwiceKeepsLatest(t: Table, first: Row, second: Row)
    requires UniqueKeys(t)
    requires KeyOf(first) == KeyOf(second)
    ensures UpsertRow(UpsertRow(t, first), second) == UpsertRow(t, second)
  {
    if t != [] && KeyOf(t[0]) != KeyOf(first) {
      var once := UpsertRow(t, first);
      assert once[1..] == UpsertRow(t[1..], first);
      UpsertTwiceKeepsLatest(t[1..], first, second);
    }
  }

  /** `InsertEVSpec` */
  function InsertEVSpec(db: Database, spec: EVSpec, embedding: Vector): (r: Result<Table, DbError>)
    requires UniqueKeys(db.table)
    ensures r.Err? <==> UpsertSpec in db.failing
    ensures r.Ok? ==> r.value == UpsertRow(db.table, RowOf(spec, embedding))
  {
    if UpsertSpec in db.failing then Err(QueryFailed(UpsertSpec))
    else Ok(UpsertRow(db.table, RowOf(spec, embedding)))
  }

  // ---------------------------------------------------------------------------
  // Similarity search.
  // ---------------------------------------------------------------------------

  /** pgvector's cosine distance `stored <=> query`, left uninterpreted. */
  type Distance = (Vector, Vector) -> real

  datatype Scored = Scored(row: Row, distance: real)

  /** `WHERE embedding IS NOT NULL`, each row with its distance to the query. */
  function Candidates(t: Table, query: Vector, dist: Distance): (c: seq<Scored>)
    ensures |c| <= |t|
  {
    if t == [] then []
    else
      var rest := Candidates(t[1..], query, dist);
      match t[0].embedding
      case None => rest
      case Some(e) => [Scored(t[0], dist(e, query))] + rest
  }

  /** The candidates are exactly the rows that carry an embedding, each scored
      with its distance to the query. */
  lemma {:induction false} CandidatesSpec(t: Table, query: Vector, dist: Distance)
    ensures var c := Candidates(t, query, dist);
            && (forall x :: x in c ==> x.row in t && x.row.embedding.Some?
                                       && x.distance == dist(x.row.embedding.value, query))
            && (forall row :: row in t && row.embedding.Some? ==>
                                Scored(row, dist(row.embedding.value, query)) in c)
  {
    if t != [] {
      CandidatesSpec(t[1..], query, dist);
      assert forall row :: row in t ==> row == t[0] || row in t[1..];
    }
  }

  predicate Ascending(s: seq<Scored>) {
    forall i, j :: 0 <= i <= j < |s| ==> s[i].distance <= s[j].distance
  }

  /** Insert `x` in front of the first element at least as far: among equal
      distances the earlier row stays first. */
  function InsertByDistance(x: Scored, s: seq<Scored>): (r: seq<Scored>)
    requires Ascending(s)
    ensures Ascending(r)
    ensures |r| == |s| + 1
    ensures r[0] == x || (s != [] && r[0] == s[0])
  {
    if s == [] || x.distance <= s[0].distance then [x] + s
    else
      var rest := InsertByDistance(x, s[1..]);
      var r := [s[0]] + rest;
      assert s == [s[0]] + s[1..];
      assert s[0].distance <= rest[0].distance;
      assert Ascending(r) by {
        forall i, j | 0 <= i <= j < |r|
          ensures r[i].distance <= r[j].distance
        {
          if i > 0 {
            assert r[i] == rest[i - 1] && r[j] == rest[j - 1];
          } else if j > 0 {
            assert r[j] == rest[j - 1];
          }
        }
      }
      r
  }

  /** Inserting adds `x` and loses nothing. */
  lemma {:induction false} InsertByDistancePermutes(x: Scored, s: seq<Scored>)
    requires Ascending(s)
    ensures multiset(InsertByDistance(x, s)) == multiset(s) + multiset{x}
  {
    if s != [] && x.distance > s[0].distance {
      InsertByDistancePermutes(x, s[1..]);
      assert s == [s[0]] + s[1..];
    }
  }

  /** `ORDER BY embedding <=> $1`: the candidates, nearest first. */
  function SortByDistance(s: seq<Scored>): (r: seq<Scored>)
    ensures Ascending(r)
    ensures multiset(r) == multiset(s)
    ensures |r| == |s|
  {
    if s == [] then []
    else
      assert s == [s[0]] + s[1..];
      InsertByDistancePermutes(s[0], SortByDistance(s[1..]));
      InsertByDistance(s[0], SortByDistance(s[1..]))
  }

  /** A neighbour as the search reports it: confidence `1 - distance`. */
  function NeighbourSpec(x: Scored): EVSpec {
    EVSpec(x.row.make, x.row.model, x.row.year, x.row.capacity, x.row.power, x.row.chemistry,
           1.0 - x.distance, SourceDatabase)
  }

  /** `spec` is how the search reports some row of `t` that has an embedding. */
  ghost predicate ReportsRow(t: Table, query: Vector, dist: Distance, spec: EVSpec) {
    exists row :: row in t && row.embedding.Some?
                  && spec == NeighbourSpec(Scored(row, dist(row.embedding.value, query)))
  }

  /** The `limit` nearest candidates of `t`, nearest first (`ORDER BY ... LIMIT`). */
  function Nearest(t: Table, query: Vector, limit: nat, dist: Distance): (k: seq<Scored>)
    ensures |k| <= limit
  {
    var sorted := SortByDistance(Candidates(t, query, dist));
    if limit < |sorted| then sorted[..limit] else sorted
  }

  /** `Nearest` keeps candidates only, nearest first: all of them when there are
      at most `limit`, and otherwise `limit` of them none farther than any
      candidate left out. */
  lemma NearestSpec(t: Table, query: Vector, limit: nat, dist: Distance)
    ensures var k := Nearest(t, query, limit, dist);
            var c := Candidates(t, query, dist);
            && Ascending(k)
            && (|k| == limit || multiset(k) == multiset(c))
            && (forall x :: x in k ==> x in c)
            && multiset(k) <= multiset(c)
            && (forall x, y :: x in k && y in c && y !in k ==> x.distance <= y.distance)
  {
    var c := Candidates(t, query, dist);
    var sorted := SortByDistance(c);
    var k := Nearest(t, query, limit, dist);
    assert sorted == k + sorted[|k|..];
    assert multiset(sorted) == multiset(k) + multiset(sorted[|k|..]);
    InSorted(c, sorted, k);
    KeptAreNearest(c, sorted, k);
  }

  lemma InSorted(c: seq<Scored>, sorted: seq<Scored>, k: seq<Scored>)
    requires multiset(sorted) == multiset(c)
    requires k <= sorted
    ensures forall x :: x in k ==> x in c
  {
    forall x | x in k
      ensures x in c
    {
      assert x in sorted;
      assert x in multiset(sorted);
    }
  }

  /** A prefix of an ascending ordering is at least as near as everything it leaves out. */
  lemma KeptAreNearest(c: seq<Scored>, sorted: seq<Scored>, k: seq<Scored>)
    requires multiset(sorted) == multiset(c)
    requires Ascending(sorted)
    requires k <= sorted
    ensures forall x, y :: x in k && y in c && y !in k ==> x.distance <= y.distance
  {
    forall x, y | x in k && y in c && y !in k
      ensures x.distance <= y.distance
    {
      var i :| 0 <= i < |k| && k[i] == x;
      assert y in multiset(sorted);
      var j :| 0 <= j < |sorted| && sorted[j] == y;
      assert sorted[i] == x;
    }
  }

  /** The rows as the search reports them, in the same order. */
  function Report(k: seq<Scored>): (r: seq<EVSpec>)
    ensures |r| == |k|
    ensures forall i :: 0 <= i < |k| ==> r[i] == NeighbourSpec(k[i])
  {
    seq(|k|, i requires 0 <= i < |k| => NeighbourSpec(k[i]))
  }

  /** `SimilaritySearch`: the nearest `limit` rows that carry an embedding,
      nearest (most confident) first. */
  function SimilaritySearch(db: Database, query: Vector, limit: int, dist: Distance): (r: Result<seq<EVSpec>, DbError>)
    ensures SelectNearest in db.failing ==> r == Err(QueryFailed(SelectNearest))
    ensures SelectNearest !in db.failing && limit < 0 ==> r == Err(NegativeLimit)
    ensures r.Ok? <==> SelectNearest !in db.failing && limit >= 0
    ensures r.Ok? ==> |r.value| <= limit
  {
    if SelectNearest in db.failing then Err(QueryFailed(SelectNearest))
    else if limit < 0 then Err(NegativeLimit)
    else Ok(Report(Nearest(db.table, query, limit, dist)))
  }

  /** Every record the search reports is a stored row with an embedding, marked
      as coming from the database, and confidence never increases along the
      answer. */
  lemma SearchReportsRows(db: Database, query: Vector, limit: int, dist: Distance)
    requires SelectNearest !in db.failing && limit >= 0
    ensures var found := SimilaritySearch(db, query, limit, dist).value;
            && (forall i :: 0 <= i < |found| ==> found[i].source == SourceDatabase)
            && (forall i, j :: 0 <= i <= j < |found| ==> found[i].confidence >= found[j].confidence)
            && (forall i :: 0 <= i < |found| ==> ReportsRow(db.table, query, dist, found[i]))
  {
    var kept := Nearest(db.table, query, limit, dist);
    var found := Report(kept);
    NearestSpec(db.table, query, limit, dist);
    CandidatesSpec(db.table, query, dist);
    forall i | 0 <= i < |found|
      ensures ReportsRow(db.table, query, dist, found[i])
    {
      assert kept[i] in kept;
    }
  }

  /** Asked for one result, the search returns nothing exactly when no row has
      an embedding, and otherwise a row at least as close to the query as every
      other embedded row. */
  lemma NearestNeighbour(db: Database, query: Vector, dist: Distance)
    requires SelectNearest !in db.failing
    ensures var r := SimilaritySearch(db, query, 1, dist);
            && r.Ok?
            && (r.value == [] <==> forall row :: row in db.table ==> row.embedding.None?)
            && (r.value != [] ==>
                  && |r.value| == 1
                  && forall row :: row in db.table && row.embedding.Some? ==>
                       r.value[0].confidence >= 1.0 - dist(row.embedding.value, query))
  {
    var c := Candidates(db.table, query, dist);
    var k := Nearest(db.table, query, 1, dist);
    NearestSpec(db.table, query, 1, dist);
    CandidatesSpec(db.table, query, dist);
    if k == [] {
      assert multiset(c) == multiset{};
    } else {
      forall row | row in db.table && row.embedding.Some?
        ensures k[0].distance <= dist(row.embedding.value, query)
      {
        assert k[0] in k;
      }
    }
  }

  // ---------------------------------------------------------------------------
  // Migrations.
  // ---------------------------------------------------------------------------

  datatype MigrationOp = MigrateUp | MigrateDown | MigrateSteps(n: int)

  /** What golang-migrate reports for one operation. */
  datatype EngineReply =
    | InstanceUnavailable   // the migrate instance could not be created
    | Applied
    | NoChange              // `migrate.ErrNoChange`
    | EngineFailed

  datatype MigrateError = InstanceFailed | RunFailed(op: MigrationOp)

  /** `MigrateUp`, `MigrateDown` and `MigrateSteps`: "no change" is success. */
  function Migrate(op: MigrationOp, reply: EngineReply): (r: Result<(), MigrateError>)
    ensures r.Ok? <==> reply == Applied || reply == NoChange
    ensures reply == EngineFailed ==> r == Err(RunFailed(op))
  {
    match reply
    case InstanceUnavailable => Err(InstanceFailed)
    case EngineFailed => Err(RunFailed(op))
    case Applied => Ok(())
    case NoChange => Ok(())
  }
}

=== FILE: text.dfy ===
/** Character classes and string helpers, with the meaning Go's libraries give them. */
module Text {

  /** RE2's Perl class `\s`: tab, newline, form feed, carriage return and space
      (RE2 leaves the vertical tab out). */
  predicate IsRegexSpace(c: char) {
    c == '\t' || c == '\n' || c == '\U{0C}' || c == '\r' || c == ' '
  }

  /** Go's `unicode.IsSpace`, the class `strings.TrimSpace` strips. */
  predicate IsSpace(c: char) {
    || c in {'\t', '\n', '\U{0B}', '\U{0C}', '\r', ' ', '\U{85}', '\U{A0}', '\U{1680}',
             '\U{2028}', '\U{2029}', '\U{202F}', '\U{205F}', '\U{3000}'}
    || ('\U{2000}' <= c <= '\U{200A}')
  }

  predicate AllSpace(s: string) {
    forall i :: 0 <= i < |s| ==> IsSpace(s[i])
  }

  /** `s` without its leading white space. */
  function TrimLeft(s: string): (r: string)
    ensures |r| <= |s| && r == s[|s| - |r|..]
    ensures AllSpace(s[..|s| - |r|])
    ensures r != [] ==> !IsSpace(r[0])
  {
    if s != [] && IsSpace(s[0]) then
      var r := TrimLeft(s[1..]);
      assert s[..|s| - |r|] == [s[0]] + s[1..][..|s| - 1 - |r|];
      r
    else
      s
  }

  /** `s` without its trailing white space. */
  function TrimRight(s: string): (r: string)
    ensures |r| <= |s| && r == s[..|r|]
    ensures AllSpace(s[|r|..])
    ensures r != [] ==> !IsSpace(r[|r| - 1])
  {
    if s != [] && IsSpace(s[|s| - 1]) then
      var r := TrimRight(s[..|s| - 1]);
      assert s[|r|..] == s[..|s| - 1][|r|..] + [s[|s| - 1]];
      r
    else
      s
  }

  /** Go's `strings.TrimSpace`: the part of `s` left once white space is
      stripped from both ends. */
  function TrimSpace(s: string): (r: string)
    ensures |r| <= |s|
    ensures r != [] ==> !IsSpace(r[0]) && !IsSpace(r[|r| - 1])
    ensures r == [] <==> AllSpace(s)
  {
    var l := TrimLeft(s);
    var r := TrimRight(l);
    assert r == [] ==> s == s[..|s| - |l|] + l;
    assert r != [] ==> r[0] == l[0];
    r
  }

  /** `r` is the stretch of `s` starting at `lo`, with only white space around it. */
  predicate PaddedCore(s: string, r: string, lo: int) {
    && 0 <= lo <= |s| - |r| && r == s[lo..lo + |r|]
    && AllSpace(s[..lo]) && AllSpace(s[lo + |r|..])
  }

  /** What `TrimSpace` keeps is a stretch of `s` with only white space around it. */
  lemma TrimSpaceIsInfix(s: string)
    ensures exists lo :: PaddedCore(s, TrimSpace(s), lo)
  {
    var l := TrimLeft(s);
    var r := TrimRight(l);
    var lo := |s| - |l|;
    assert s[lo + |r|..] == l[|r|..];
    assert PaddedCore(s, r, lo);
    assert r == TrimSpace(s);
  }

  /** Stripping the front of white-space padding followed by a core that does
      not start with white space leaves exactly that core. */
  lemma {:induction false} TrimLeftPadded(pre: string, rest: string)
    requires AllSpace(pre)
    requires rest != [] ==> !IsSpace(rest[0])
    ensures TrimLeft(pre + rest) == rest
  {
    if pre != [] {
      assert (pre + rest)[1..] == pre[1..] + rest;
      TrimLeftPadded(pre[1..], rest);
    } else {
      assert pre + rest == rest;
    }
  }

  lemma {:induction false} TrimRightPadded(rest: string, post: string)
    requires AllSpace(post)
    requires rest != [] ==> !IsSpace(rest[|rest| - 1])
    ensures TrimRight(rest + post) == rest
  {
    if post != [] {
      assert (rest + post)[..|rest + post| - 1] == rest + post[..|post| - 1];
      TrimRightPadded(rest, post[..|post| - 1]);
    } else {
      assert rest + post == rest;
    }
  }

  /** Trimming recovers the core of any text padded with white space on both
      sides, provided the core itself neither starts nor ends with white space. */
  lemma TrimSpacePadded(pre: string, core: string, post: string)
    requires AllSpace(pre) && AllSpace(post)
    requires core != [] ==> !IsSpace(core[0]) && !IsSpace(core[|core| - 1])
    ensures TrimSpace(pre + core + post) == core
  {
    assert pre + core + post == pre + (core + post);
    if core == [] {
      assert AllSpace(pre + core + post);
    } else {
      TrimLeftPadded(pre, core + post);
      TrimRightPadded(core, post);
    }
  }

  /** Whether the text character `c` matches the pattern character `p` (written
      in lower case) under RE2's `(?i)` simple case folding. Beyond the ASCII
      letter pairs, the folding orbit of `k` holds the KELVIN SIGN and that of `s`
      the LATIN SMALL LETTER LONG S. */
  predicate FoldsTo(c: char, p: char) {
    || c == p
    || ('a' <= p <= 'z' && c as int == p as int - 32)
    || (p == 'k' && c == '\U{212A}')
    || (p == 's' && c == '\U{017F}')
  }

  /** The case-insensitive literal `lit` occurs in `text` starting at `i`. */
  predicate MatchesFoldAt(text: string, i: nat, lit: string) {
    i + |lit| <= |text| && forall k :: 0 <= k < |lit| ==> FoldsTo(text[i + k], lit[k])
  }

  /** ASCII lower-casing of one character, the part of SQL `LOWER()` this model keeps. */
  function LowerChar(c: char): char {
    if 'A' <= c <= 'Z' then (c as int + 32) as char else c
  }

  function Lower(s: string): string {
    seq(|s|, i requires 0 <= i < |s| => LowerChar(s[i]))
  }

  /** Equal once both sides are lower-cased, as `LOWER(a) = LOWER(b)` compares them. */
  predicate EqualFold(a: string, b: string) {
    Lower(a) == Lower(b)
  }
}

=== FILE: wrappers.dfy ===
/** Failure-carrying shapes shared by every module of the model: Go's
    `(value, error)` and `(*T, error)` returns become `Result` and `Option`. */
module Wrappers {

  /** A value that may be absent (Go's nil pointer or "not found"). */
  datatype Option<+T> = None | Some(value: T)

  /** A value or the error that prevented computing it. */
  datatype Result<+T, +E> = Ok(value: T) | Err(error: E)
}
